=== FILE: README.md ===
# StitchViewKit nested list — a Dafny model

This project models the core of StitchViewKit's nested list widget. It is a
list of elements, and each element may itself hold a list of children:

- **The data model.** An element has an id, a three-state children field
  (leaf, empty group, group with items) and an optional "expanded in
  sidebar" flag. A *forest* is a root-level sequence of such elements.
- **The queries.** `isGroup`, `allElementIds`, `flattenedItems`, `get` and
  `findParent`.
- **The identity-addressed mutations.** `insert(_:after:)` and `remove`, in
  both the current model and the older model that the package manifest
  builds.
- **The grouping analysis.** The `GroupCandidate` verdict, with
  `containsValidGroup` and `containsValidUngroup`.
- **The grouping operations.** `createGroup`, `findLowestIndex`,
  `insertGroup` and `ungroup`.
- **The drag rules.** The per-row transition driven by the pointer position,
  and the relocation that runs whenever the drag candidate changes, in the
  current and the older list view.
- **The button actions.** Create group, ungroup and delete selections, with
  their enabled conditions and the selection rule of the editing list.
- **The utility.** The bounds-checked subscript.

Every operation is a pure function over immutable datatypes. Swift's
in-place mutation (`mutating`, `@Binding`) becomes a function from the old
value to the new one.

Files and modules:

- `wrappers.dfy` (`Wrappers`): the `Option` type.
- `forest.dfy` (`Forest`): elements, `Flatten` (`flattenedItems`), id sets,
  the pre-order id listing `Order`, and `Unique`. `Unique` says the ids of
  `flattenedItems` are pairwise distinct. `Outline` is the same listing with
  each id paired with its parent's id, so it pins the nesting as well as the
  order.
- `queries.dfy` (`Queries`): `get` and `findParent`, and their pre-order
  characterisations.
- `mutation.dfy` (`Mutation`): `insert(_:after:)` and `remove` of the current
  model, removal of a whole selection, and uniqueness preservation.
- `legacy.dfy` (`LegacyModel`): `insert(_:after:)` of the older model. Its
  `flattenedItems` and `remove` are the same algorithms as the current ones,
  so they are shared.
- `group_analysis.dfy` (`GroupAnalysis`): `GroupCandidate`,
  `containsValidGroup`, `containsValidUngroup` and `findLowestIndex`.
- `group_ops.dfy` (`GroupOps`): `createGroup`, `insertGroup` and `ungroup`.
- `group_placement.dfy` (`GroupPlacement`): what `insertGroup` does to a
  forest when the group came from a groupable level.
- `drag.dfy` (`Drag`): the drag state machine and both relocation handlers.
- `buttons.dfy` (`Buttons`): the three button actions and `activeSelections`.
- `util.dfy` (`Util`): `subscript(safe:)`.

Where the code and its comments or documentation disagree, the model follows
the code:

- `insert(_:after:)` puts the new element at the anchor's own index, so it
  lands immediately *before* the anchor, not after it. The `index <
  self.count` test is always true inside the loop, so its append branch is
  dead.
- `containsValidGroup` returns `.valid` carrying the id of the first
  selected element of the groupable level. It never carries nil, even for a
  root-level group, although the comment on `GroupCandidate` says nil
  stands for the root. See Findings.
- Removing a selection runs `remove` once per selected id, in the set's
  iteration order. It is not a single filtering pass.
- The relocation handler runs on every change of the drag candidate, not on
  drop. A nil candidate leaves the data unchanged (the handler only logs); it
  does not append at the root end.
- `ungroup` does not stop at the first element carrying the id. It
  dissolves every such element except those inside the children of an
  element it has already dissolved: the children a match hands back are not
  searched again. Under unique ids there is exactly one match.

Identity uniqueness is a precondition wherever a property needs it. The code
does not check it, and it is stated as `Forest.Unique`.

## Model

Paths are relative to the repository root.

| member | source | states |
|---|---|---|
| Forest.MapChildren | Sources/StitchViewKit/StitchNestedList/Model/StitchNestedListElement.swift:324-327 | Rewriting children through optional chaining keeps the id, the expanded flag and group status. A leaf stays a leaf with no children, and handing back the same children gives back the same element. |
| Forest.OutlineIsOrder | Sources/StitchViewKit/StitchNestedList/Model/StitchNestedListElement.swift:157-163 | The nested listing has one line per entry of the pre-order id listing, carrying the same id at the same position. |
| Forest.OrderIsFlattenedIds | Sources/StitchViewKit/StitchNestedList/Model/StitchNestedListElement.swift:157-163 | The pre-order id listing used for uniqueness is exactly the ids of `flattenedItems`: each element, then its children's listing, then its later siblings. |
| Forest.OrderIds | Sources/StitchViewKit/StitchNestedList/Model/StitchNestedListElement.swift:28-36 | An id occurs in the pre-order listing iff it is in the union of the roots' `allElementIds`. |
| Forest.FlattenedIdsWithin | Sources/StitchViewKit/StitchNestedList/Model/StitchNestedListElement.swift:28-36 | Every element listed by `flattenedItems` has all its `allElementIds` among the forest's ids. |
| Forest.UniqueCons | Sources/StitchViewKit/StitchNestedList/Model/StitchNestedListElement.swift:157-163 | The ids of a non-empty forest's flattening are distinct iff all of these hold: the head's id is not below it, the head's children are unique, the head's tree shares no id with the rest, and the rest is unique. |
| Forest.UniqueFlattenedIds | Sources/StitchViewKit/StitchNestedList/Model/StitchNestedListElement.swift:157-163 | Under unique ids, two positions of `flattenedItems` with the same id are the same position. |
| Queries.Get | Sources/StitchViewKit/StitchNestedList/Model/StitchNestedListElement.swift:235-248 | A found element has the requested id and is one of the flattened elements. The result is nil iff the id occurs nowhere in the forest. |
| Queries.GetIsFirstInPreOrder | Sources/StitchViewKit/StitchNestedList/Model/StitchNestedListElement.swift:235-248 | `get(id)` is the first element of `flattenedItems` with that id. |
| Queries.GetUnique | Sources/StitchViewKit/StitchNestedList/Model/StitchNestedListElement.swift:235-248 | Under unique ids, looking up any flattened element's id returns that element. |
| Queries.FindParent | Sources/StitchViewKit/StitchNestedList/Model/StitchNestedListElement.swift:336-351 | A found parent is a flattened element that is a group with a direct child carrying the id. |
| Queries.FindParentIsFirstInPreOrder | Sources/StitchViewKit/StitchNestedList/Model/StitchNestedListElement.swift:336-351 | `findParent` returns the first flattened element, in pre-order, that has a direct child with the id. It is nil iff no flattened element has one. |
| Queries.FindParentComplete | Sources/StitchViewKit/StitchNestedList/Model/StitchNestedListElement.swift:336-351 | Every id that occurs below the top level has a parent: `findParent` finds one. |
| Queries.OutlineParent | Sources/StitchViewKit/StitchNestedList/Model/StitchNestedListElement.swift:336-351 | Under unique ids, every line of the nested listing names as parent the id of the element `findParent` returns for it. A top-level id, which has no parent, carries the parent given to the whole forest. |
| Queries.FindParentOfRoot | Sources/StitchViewKit/StitchNestedList/Model/StitchNestedListElement.swift:336-351 | Under unique ids, a root element has no parent. |
| Mutation.InsertAtAnchor | Sources/StitchViewKit/StitchNestedList/Model/StitchNestedListElement.swift:172-213 | The nested search reports success iff the anchor occurs in the forest. When it does not, the forest is unchanged, so the parent frame keeps scanning. |
| Mutation.InsertAtAnchorNestsBefore | Sources/StitchViewKit/StitchNestedList/Model/StitchNestedListElement.swift:180-202 | When the anchor occurs, the data's nested listing enters immediately before the anchor's first line, with the anchor's parent as its parent. The lines before it are free of the anchor, and nothing else moves or changes parent. |
| Mutation.InsertAtAnchorPlacesBefore | Sources/StitchViewKit/StitchNestedList/Model/StitchNestedListElement.swift:180-202 | When the anchor occurs, the inserted tree's ids enter the pre-order listing immediately before the anchor's first occurrence, and nothing else moves. |
| Mutation.Insert | Sources/StitchViewKit/StitchNestedList/Model/StitchNestedListElement.swift:167-213 | There are three cases. A nil anchor puts the data at root index 0. An anchor that occurs puts the data immediately before its first pre-order occurrence, as a sibling of the anchor with the anchor's parent. An absent anchor appends the data at the root end. |
| Mutation.InsertSplices | Sources/StitchViewKit/StitchNestedList/Model/StitchNestedListElement.swift:167-213 | In every branch the result's pre-order listing is the original listing with the data's own listing spliced in exactly once. |
| Mutation.InsertTakesAnchorParent | Sources/StitchViewKit/StitchNestedList/Model/StitchNestedListElement.swift:167-213 | With fresh, distinct data ids in a unique forest, the inserted element's parent as found by `findParent` is the anchor's parent when the anchor occurs. It is nil, at the root, when the anchor is nil or absent. |
| Mutation.InsertKeepsUnique | Sources/StitchViewKit/StitchNestedList/Model/StitchNestedListElement.swift:167-213 | Take a unique forest and data whose ids are distinct and fresh. Inserting the data keeps the forest unique and adds exactly the data's ids. |
| Mutation.Remove | Sources/StitchViewKit/StitchNestedList/Model/StitchNestedListElement.swift:216-233 | Removal never adds an id, and it is a no-op when the id is absent. |
| Mutation.RemoveCutsSubtree | Sources/StitchViewKit/StitchNestedList/Model/StitchNestedListElement.swift:216-233 | Under unique ids, when the id occurs, removal cuts the element's whole tree out of the pre-order id listing, and every other id keeps its order. It speaks of ids only; that the survivors keep their parents is `Mutation.RemoveCutsOutline`. |
| Mutation.RemoveCutsOutline | Sources/StitchViewKit/StitchNestedList/Model/StitchNestedListElement.swift:216-233 | Under unique ids, when the id occurs, removal cuts the element's nested listing (its tree, with parents) out of the forest's. Every other line is unchanged, so the surviving elements keep their order and their parents. |
| Mutation.RemoveKeepsParents | Sources/StitchViewKit/StitchNestedList/Model/StitchNestedListElement.swift:216-233 | Under unique ids, every id that survives a removal has the same parent, as found by `findParent`, as before it. |
| Mutation.RemoveKeepsUnique | Sources/StitchViewKit/StitchNestedList/Model/StitchNestedListElement.swift:216-233 | Under unique ids, removal keeps the forest unique and the id is gone. The remaining ids are the original ids minus exactly the removed element's `allElementIds`. |
| Mutation.RemoveAll | Sources/StitchViewKit/StitchNestedList/View/Buttons/DeleteSelectionsCallback.swift:34-36 | Removing ids one after another never adds an id. |
| Mutation.RemoveAllUntouched | Sources/StitchViewKit/StitchNestedList/View/Buttons/DeleteSelectionsCallback.swift:34-36 | Removing ids none of which occurs leaves the forest unchanged. |
| Mutation.RemoveAllKeepsUnique | Sources/StitchViewKit/StitchNestedList/Model/StitchNestedListElement.swift:312-315 | Under unique ids, removing each listed id keeps the forest unique, and none of those ids remains. |
| Mutation.RemoveAllKeepsPrefix | Sources/StitchViewKit/StitchNestedList/Model/StitchNestedListElement.swift:312-318 | Removals of ids not carried by the first `k` roots keep those roots' ids in place, so index `k` is still at most the new length. |
| Mutation.RemoveAllKeepsParents | Sources/StitchViewKit/StitchNestedList/View/Buttons/DeleteSelectionsCallback.swift:34-36 | Under unique ids, removing ids one after another leaves every surviving id with the parent `findParent` found for it before. |
| Mutation.RemoveAllWithinClosed | Sources/StitchViewKit/StitchNestedList/Model/StitchNestedListElement.swift:216-233 | Under unique ids, removing ids drawn from a descendant-closed set keeps every id outside that set. |
| LegacyModel.LegacyInsert | Sources/StitchNestedList/Model/StitchNestedListElement.swift:24-45 | The older insertion leaves the forest unchanged when the anchor occurs nowhere: there is no root fallback. |
| LegacyModel.LegacyInsertAgrees | Sources/StitchNestedList/Model/StitchNestedListElement.swift:24-45 | Under unique ids, with the anchor present, the older insertion (no early exit) inserts exactly once. It equals the current insertion, immediately before the anchor. |
| GroupAnalysis.Selected | Sources/StitchViewKit/StitchNestedList/Model/StitchNestedListElement.swift:79-85 | A level's selected elements are exactly the level's elements whose id is selected, in level order. There are none iff no element of the level is selected. |
| GroupAnalysis.FindLowestIndex | Sources/StitchViewKit/StitchNestedList/Model/StitchNestedListElement.swift:251-255 | The result is the smallest index whose element is selected, and nil iff none is. The element there is the first selected element of the level. |
| GroupAnalysis.ContainsValidGroup | Sources/StitchViewKit/StitchNestedList/Model/StitchNestedListElement.swift:69-114 | An empty forest or empty selection is invalid. A valid verdict always carries an id, and it is a selected id, never nil. |
| GroupAnalysis.ContainsValidGroupIntended | Sources/StitchViewKit/StitchNestedList/Model/StitchNestedListElement.swift:69-114 | The analysis with the parent of the groupable level as payload. It is valid on exactly the same inputs as the code's analysis. |
| GroupAnalysis.FindGroupLevelSound | Sources/StitchViewKit/StitchNestedList/Model/StitchNestedListElement.swift:79-113 | A level the search accepts is a sibling sequence of the forest. Its selected elements' trees make up exactly the selection. The payload is its first selected id, and the parent is the level's owner. |
| GroupAnalysis.FindGroupLevelComplete | Sources/StitchViewKit/StitchNestedList/Model/StitchNestedListElement.swift:87-103 | Under unique ids, when some sibling sequence is groupable, the recursive search finds a level. |
| GroupAnalysis.ValidGroupIffGroupableLevel | Sources/StitchViewKit/StitchNestedList/Model/StitchNestedListElement.swift:69-114 | Under unique ids, the verdict is valid iff some sibling sequence has selected elements whose `allElementIds` union to exactly the selection. |
| GroupAnalysis.ContainsValidUngroup | Sources/StitchViewKit/StitchNestedList/Model/StitchNestedListElement.swift:117-155 | A valid verdict never carries nil, and its id is selected and occurs in the forest. |
| GroupAnalysis.UngroupDecidedByFirstSelected | Sources/StitchViewKit/StitchNestedList/Model/StitchNestedListElement.swift:117-155 | Under unique ids, the verdict is decided by the first selected element in pre-order. It is valid, carrying that element's id, iff that element is a group and its `allElementIds` equal the selection. Otherwise it is invalid, including when nothing is selected. |
| GroupOps.ReversedCollectionIsSelected | Sources/StitchViewKit/StitchNestedList/Model/StitchNestedListElement.swift:279-293 | Collecting the selected elements back to front and then reversing them gives the selected elements in their original order. |
| GroupOps.CreateGroup | Sources/StitchViewKit/StitchNestedList/Model/StitchNestedListElement.swift:257-296 | A built group has the new id, is a group and is expanded. At the target level it holds exactly that level's selected elements, in order. |
| GroupOps.CreateGroupFindsOwner | Sources/StitchViewKit/StitchNestedList/Model/StitchNestedListElement.swift:261-272 | With a target id, the group is built from the children of the first flattened group carrying that id. It is nil when no group carries it. |
| GroupOps.FirstOwnerUnique | Sources/StitchViewKit/StitchNestedList/Model/StitchNestedListElement.swift:261-272 | Under unique ids, the first flattened group with a group's id is that group. |
| GroupOps.IntendedGroupCollectsLevel | Sources/StitchViewKit/StitchNestedList/Model/StitchNestedListElement.swift:257-296 | With the intended payload, `createGroup` always builds the group from the groupable level's selected elements, in order. |
| GroupOps.InsertGroup | Sources/StitchViewKit/StitchNestedList/Model/StitchNestedListElement.swift:298-319 | At the first level with a selected element, the group sits at that element's index, which is still within the result. Taking the group out gives the level with every selected id removed, and the roots before it are untouched. Other levels keep their length. |
| GroupOps.InsertGroupUntouched | Sources/StitchViewKit/StitchNestedList/Model/StitchNestedListElement.swift:302-309 | A forest with no selected id anywhere is left unchanged. |
| GroupOps.InsertGroupIds | Sources/StitchViewKit/StitchNestedList/Model/StitchNestedListElement.swift:298-319 | Under unique ids, every id of the result is an unselected id of the forest or an id of the group. |
| GroupOps.InsertGroupPlaces | Sources/StitchViewKit/StitchNestedList/Model/StitchNestedListElement.swift:298-319 | When some selected id occurs, the group appears among the result's flattened elements. |
| GroupOps.Ungroup | Sources/StitchViewKit/StitchNestedList/Model/StitchNestedListElement.swift:321-333 | Ungrouping never adds an id, and it is a no-op when the id is absent. |
| GroupOps.UngroupKeepsOrder | Sources/StitchViewKit/StitchNestedList/Model/StitchNestedListElement.swift:321-333 | Under unique ids, the result's pre-order id listing is the original listing with only the group's own id taken out; every other id keeps its relative order. It speaks of ids only: that the children are re-parented to the group's parent is `GroupOps.UngroupLiftsChildren`. |
| GroupOps.UngroupLiftsChildren | Sources/StitchViewKit/StitchNestedList/Model/StitchNestedListElement.swift:321-333 | Under unique ids, when the id occurs, the group's nested listing is replaced by its children's listing, nested under the group's own parent. The lines before and after it are unchanged, ids and parents alike. |
| GroupOps.UngroupChildrenTakeGroupParent | Sources/StitchViewKit/StitchNestedList/Model/StitchNestedListElement.swift:321-351 | Under unique ids, every child of the dissolved group has, as found by `findParent`, the group's former parent as its new parent. |
| GroupOps.UngroupKeepsUnique | Sources/StitchViewKit/StitchNestedList/Model/StitchNestedListElement.swift:321-333 | Under unique ids, ungrouping keeps the forest unique and removes exactly the group's id. |
| GroupPlacement.RemoveAllOnGroupableLevel | Sources/StitchViewKit/StitchNestedList/Model/StitchNestedListElement.swift:312-315 | On a unique groupable level, removing every selected id leaves exactly the level's unselected elements. |
| GroupPlacement.InsertGroupAtThisLevel | Sources/StitchViewKit/StitchNestedList/Model/StitchNestedListElement.swift:302-318 | Take a unique groupable level and a group built from it with a fresh id. The result is unique and has the level's ids plus the group id. |
| GroupPlacement.InsertGroupAtLevel | Sources/StitchViewKit/StitchNestedList/Model/StitchNestedListElement.swift:298-319 | Take a groupable level anywhere in a unique forest and a group built from it with a fresh id. The result is unique and has the forest's ids plus the group id: nothing is lost or duplicated. |
| GroupPlacement.UngroupRestoresSelection | Sources/StitchViewKit/StitchNestedList/Model/StitchNestedListElement.swift:298-333 | Group a unique groupable level under a fresh id, then ungroup that id. The result is the unselected elements with every selected element, in level order, at the index of the first selected one. |
| GroupPlacement.UngroupGathersSelectionExample | Sources/StitchViewKit/StitchNestedList/Model/StitchNestedListElement.swift:298-333 | Grouping 1 and 3 of the leaves `[1, 2, 3]` and then ungrouping gives `[1, 3, 2]`: the selection comes back gathered, not in its former positions. |
| GroupPlacement.GroupThenUngroupKeepsIds | Sources/StitchViewKit/StitchNestedList/Model/StitchNestedListElement.swift:298-333 | Group a groupable level anywhere in a unique forest under a fresh id, then ungroup that id. The result is unique and has exactly the forest's ids: nothing is lost or duplicated. |
| Drag.OnDragPosition | Sources/StitchViewKit/StitchNestedList/View/DragIndexReader.swift:24-50 | An absent position clears both fields. A dragged element is never overwritten. A y strictly inside the row makes this row the candidate and starts a drag with this row's element. The candidate is cleared, with the dragged element kept, only below the last row during a drag. Every other position changes nothing. |
| Drag.OnlyOffsetYMatters | Sources/StitchViewKit/StitchNestedList/View/DragIndexReader.swift:31-36 | Only y plus the offset is consulted, and x never is. |
| Drag.Relocate | Sources/StitchViewKit/StitchNestedList/View/StitchNestedListView.swift:74-92 | With no dragged element, no candidate, or a candidate equal to the dragged id, the data is unchanged. Otherwise the dragged snapshot is removed and re-inserted immediately before the candidate, as the candidate's sibling with the candidate's parent, or at the root end if the candidate is gone. |
| Drag.RelocateKeepsForest | StitchNestedList/View/StitchNestedListView.swift:88-106 | Under unique ids, with the snapshot still current, relocation keeps the forest unique with exactly the same ids: the element is moved, not copied or lost. |
| Drag.LegacyRelocate | Sources/StitchNestedList/View/StitchNestedListView.swift:63-81 | The older handler has the same guards. When the candidate no longer occurs after the removal, the data is just the removal. |
| Drag.LegacyRelocateLosesDragged | Sources/StitchNestedList/View/StitchNestedListView.swift:71-77 | Under unique ids, a candidate inside the dragged element's own tree makes the dragged tree disappear from the data. |
| Drag.LegacyRelocateAgrees | Sources/StitchNestedList/View/StitchNestedListView.swift:71-77 | Under unique ids, when the candidate survives the removal, the older and current handlers agree. |
| Drag.LegacyRelocateLossExample | Sources/StitchNestedList/View/StitchNestedListView.swift:71-77 | Group 1 holding 2, dragged onto 2, vanishes with the older handler and is kept by the current one. |
| Buttons.ActiveSelections | StitchNestedList/View/StitchNestedListView.swift:36-43 | The list sees a subset of the selection. It is the whole selection iff editing is active or nothing is selected. When editing is not active it is always the empty set. |
| Buttons.ActiveSelectionsBinding | StitchNestedList/View/StitchNestedListView.swift:36-43 | While editing, what the list writes through the binding is what it reads back. Otherwise it reads back the empty set, and its writes leave the real selection as it was. |
| Buttons.CreateGroupWith | Sources/StitchViewKit/StitchNestedList/View/Buttons/CreateGroupButton.swift:36-51 | The selection is always cleared and editing ends. A nil group leaves the data unchanged. A built group has the new id and, when some selected id occurs, is placed in the data. |
| Buttons.CreateGroupKeepsSelectionInGroup | Sources/StitchViewKit/StitchNestedList/View/Buttons/CreateGroupButton.swift:39-47 | Under unique ids, after a group is built and inserted, a selected id survives only inside the new group. |
| Buttons.CreateGroupAction | Sources/StitchViewKit/StitchNestedList/View/Buttons/CreateGroupButton.swift:31-55 | The button as written: selection cleared, editing off, data unchanged without a group. When enabled under unique ids, the group is built from the children of the first group carrying the verdict's payload, a selected id. |
| Buttons.CreateGroupActionIntended | Sources/StitchViewKit/StitchNestedList/View/Buttons/CreateGroupButton.swift:31-55 | The same button with the parent of the groupable level as payload: selection cleared, editing off, data unchanged without a group. |
| Buttons.IntendedCreateGroupMovesSelection | Sources/StitchViewKit/StitchNestedList/View/Buttons/CreateGroupButton.swift:36-51 | Under unique ids, an enabled intended button always builds the group from the selected elements of one groupable level, in order. That level is the root level or the children of a listed owner element. The forest stays unique and gains exactly the group id. |
| Buttons.CreateGroupDoesNothingExample | Sources/StitchViewKit/StitchNestedList/View/Buttons/CreateGroupButton.swift:39-41 | For `[1, 2, 3]` with `{2, 3}` selected, the enabled button as written changes nothing and builds no group. The intended button gives `[1, group(2, 3)]`. |
| Buttons.CreateGroupLosesElementExample | Sources/StitchViewKit/StitchNestedList/View/Buttons/CreateGroupButton.swift:39-47 | For `[1, 2(3)]` with `{2, 3}` selected, the enabled button as written gives `[1, group(3)]` and id 2 is lost. The intended button gives `[1, group(2(3))]`. |
| Buttons.SelectedGroupId | Sources/StitchViewKit/StitchNestedList/View/Buttons/UngroupButton.swift:31-39 | The selected group id is present iff the ungroup verdict is valid. It is then a selected id that occurs in the data. |
| Buttons.UngroupAction | Sources/StitchViewKit/StitchNestedList/View/Buttons/UngroupButton.swift:41-56 | The selection is cleared and edit mode becomes inactive. The callback gets the selected group id. Without one the data is unchanged, and with one no id is added. |
| Buttons.UngroupActionDissolvesSelectedGroup | Sources/StitchViewKit/StitchNestedList/View/Buttons/UngroupButton.swift:31-56 | Under unique ids, the button is enabled iff the first selected element is a group whose ids are exactly the selection. It then dissolves that group in place, keeping the forest unique with only the group id gone. |
| Buttons.DeleteSelectionsAction | Sources/StitchViewKit/StitchNestedList/View/Buttons/DeleteSelectionsCallback.swift:30-43 | The callback gets the whole selection before removal. The selection is cleared, edit mode becomes inactive and no id is added. The data is unchanged when no selected id occurs. |
| Buttons.DeleteSelectionsRemovesSelected | Sources/StitchViewKit/StitchNestedList/View/Buttons/DeleteSelectionsCallback.swift:34-36 | Under unique ids, after deletion the data is unique and no selected id remains. |
| Buttons.DeleteRemovesExactlyClosedSelection | Sources/StitchViewKit/StitchNestedList/View/Buttons/DeleteSelectionsCallback.swift:34-36 | Under unique ids with a descendant-closed selection, deletion removes exactly the selected ids. |
| Util.SafeIndex | Sources/StitchViewKit/Util.swift:10-15 | The result is present iff the index is within bounds, including the negative and too-large cases, and is then the element at that index. |

## Left out

- Gesture capture (long-press timing, drag gestures), row rendering, overlays, offsets, animation and coordinate spaces are left out. They are SwiftUI view code; the pointer position and row frame are inputs to `Drag.OnDragPosition`.
- The selection cascade from a selected parent to its children in the row view is left out. Its firing order belongs to SwiftUI. It tends to make selections descendant-closed, which is the `Closed` precondition of `Buttons.DeleteRemovesExactlyClosedSelection`.
- `createId()` is a parameter (`newId`) with the precondition that it is not already in the forest. The id minting is not visible code.
- The button callbacks are not called. The values they receive are recorded in the result (`created`, `ungrouped`, `reported`).
- Coordinates are `real`, not `CGFloat`. The rules use only one addition and comparisons, so no rounding is involved.
- The iteration order of a Swift `Set` is unspecified. `selections.forEach { remove }` takes the order as a parameter `order` that lists exactly the selected ids.
- Behaviour under duplicate ids is not characterised. The code does not guard against them, so the properties that need unique ids assume `Forest.Unique`.
- The stale `Sources/StitchViewKit/StitchNestedList/View/CreateGroupButton.swift` is not part of this model. It duplicates the button type and does not compose with the model (it discards `createGroup`'s result and calls `fatalError`).
- `Package.swift` is a build manifest and is not part of this model.
- The `else` branch that appends at `:188-190` of `insert` is unreachable, because `index < self.count` always holds inside the loop. `Mutation.Insert` has no such branch.
- The top-level `StitchNestedList/View/StitchNestedListView.swift` handler is textually the same as the current one. It is modelled by `Drag.Relocate` with the current fallback insert.
- GroupOps.InsertGroup: uniqueness of the result is proved only when the group was built from a groupable level (`GroupPlacement.InsertGroupAtLevel`). For an arbitrary group, only containment of ids (`GroupOps.InsertGroupIds`) is proved.
- Mutation.RemoveAll: the exact remaining id set is proved only for descendant-closed selections. In general it is proved only that the selected ids are gone and nothing is added.
- GroupAnalysis.ValidGroupIffGroupableLevel: the characterisation of the verdict is proved under unique ids only.
- GroupAnalysis.UngroupDecidedByFirstSelected: the characterisation of the verdict is proved under unique ids only.
- GroupPlacement.GroupThenUngroupKeepsIds: for a groupable level below the root, it proves only that grouping and then ungrouping keeps the forest unique with the same ids. The exact restored placement is proved for a groupable root level, in `GroupPlacement.UngroupRestoresSelection`.
- Buttons.UngroupAction: the contract states only that no id is added. The exact result under unique ids is in `Buttons.UngroupActionDissolvesSelectedGroup`.

## Findings

| source | as written | input that shows it | evidently intended | confidence | as-written member | corrected member |
|---|---|---|---|---|---|---|
| Sources/StitchViewKit/StitchNestedList/Model/StitchNestedListElement.swift:112 | `containsValidGroup` returns the first selected element's id as the payload. The create-group button passes it to `createGroup` as the parent layer, so the enabled button builds no group and changes nothing. | forest `[1, 2, 3]` (all leaves), selection `{2, 3}` | the payload is the parent of the groupable level (nil at the root), so `[1, group(2, 3)]` results | medium, not executed | Buttons.CreateGroupDoesNothingExample | Buttons.IntendedCreateGroupMovesSelection |
| Sources/StitchViewKit/StitchNestedList/View/Buttons/CreateGroupButton.swift:39-47 | With the same payload, when the first selected element is itself a group, the new group is built from that element's children. `insertGroup` then removes the element, so its id is lost. | forest `[1, 2(3)]`, selection `{2, 3}` | the group holds the selected element itself: `[1, group(2(3))]`, with no id lost | medium, not executed | Buttons.CreateGroupLosesElementExample | Buttons.IntendedCreateGroupMovesSelection |
| Sources/StitchNestedList/View/StitchNestedListView.swift:71-77 | The older relocation removes the dragged element and then inserts it with the older `insert`, which has no root fallback. A candidate inside the dragged tree is removed with it, so the element is dropped. | `[1(2)]`, drag `1` with candidate `2` | the moved element is never lost, as with the current insert's root fallback | medium, not executed | Drag.LegacyRelocateLosesDragged | Drag.RelocateKeepsForest |

=== FILE: buttons.dfy ===
/**
  The editing controls: the selection binding of the list view and the
  create-group, ungroup and delete-selections button actions. Each action
  composes model operations and then clears the selection; the callbacks
  are recorded in the result.
 */
module Buttons {
  import opened Wrappers
  import opened Forest
  import opened Queries
  import opened Mutation
  import opened GroupAnalysis
  import opened GroupOps
  import opened GroupPlacement

  /** SwiftUI's edit mode. */
  datatype EditMode = Inactive | Transient | Active

  /** The list view is editing exactly when its edit mode is present and active. */
  predicate IsEditing(editMode: Option<EditMode>) {
    editMode == Some(Active)
  }

  /**
    The selection binding handed to the list: the real selection while
    editing, a constant empty set otherwise.
   */
  function ActiveSelections(editMode: Option<EditMode>, selections: set<Id>): (r: set<Id>)
    ensures r <= selections
    ensures r == selections <==> IsEditing(editMode) || selections == {}
    ensures !IsEditing(editMode) ==> r == {}
  {
    if IsEditing(editMode) then selections else {}
  }

  /**
    The real selection after the list writes `written` through the binding
    it was handed: the write lands while editing, and the constant binding
    handed out otherwise drops it.
   */
  function WriteSelections(editMode: Option<EditMode>, selections: set<Id>, written: set<Id>): set<Id> {
    if IsEditing(editMode) then written else selections
  }

  /**
    Reading the binding back after a write: while editing the list sees what
    it wrote; otherwise it keeps seeing the empty set and the real selection
    is untouched by anything the list writes.
   */
  lemma ActiveSelectionsBinding(editMode: Option<EditMode>, selections: set<Id>, written: set<Id>)
    ensures IsEditing(editMode) ==> ActiveSelections(editMode, WriteSelections(editMode, selections, written)) == written
    ensures !IsEditing(editMode) ==> ActiveSelections(editMode, WriteSelections(editMode, selections, written)) == {}
    ensures !IsEditing(editMode) ==> WriteSelections(editMode, selections, written) == selections
  {
  }

  // ---------------------------------------------------------------------------
  // Create group
  // ---------------------------------------------------------------------------

  /** What pressing create-group leaves behind; `created` is what the callback received. */
  datatype CreateGroupEffect = CreateGroupEffect(data: seq<Element>, selections: set<Id>, isEditing: bool,
                                                 created: Option<Element>)

  /** The button is enabled exactly when the analysis reports a valid group. */
  predicate CreateGroupEnabled(data: seq<Element>, sel: set<Id>) {
    ContainsValidGroup(data, sel).IsValidGroup()
  }

  /**
    The action body for a given parent payload: build the group; if one was
    built, report it and insert it; in any case clear the selection and stop
    editing.
   */
  function CreateGroupWith(data: seq<Element>, sel: set<Id>, newId: Id, order: seq<Id>, parent: Option<Id>)
    : (r: CreateGroupEffect)
    requires Enumerates(order, sel)
    ensures r.selections == {} && !r.isEditing
    ensures r.created.None? ==> r.data == data
    ensures r.created.Some? ==> r.created.value.id == newId && IsGroup(r.created.value)
    ensures r.created.Some? && sel * ForestIds(data) != {} ==> r.created.value in Flatten(r.data)
  {
    match CreateGroup(data, newId, parent, None, sel)
    case Some(g) =>
      assert sel * ForestIds(data) != {} ==> g in Flatten(InsertGroup(data, g, sel, order)) by {
        if sel * ForestIds(data) != {} {
          InsertGroupPlaces(data, g, sel, order);
        }
      }
      CreateGroupEffect(InsertGroup(data, g, sel, order), {}, false, Some(g))
    case None => CreateGroupEffect(data, {}, false, None)
  }

  /**
    Whatever group is built, under uniqueness a selected id survives only
    inside it, and no id appears that was not in the forest or the group.
   */
  lemma CreateGroupKeepsSelectionInGroup(data: seq<Element>, sel: set<Id>, newId: Id, order: seq<Id>, parent: Option<Id>)
    requires Enumerates(order, sel) && Unique(data)
    requires CreateGroupWith(data, sel, newId, order, parent).created.Some?
    ensures var r := CreateGroupWith(data, sel, newId, order, parent);
            ForestIds(r.data) <= (ForestIds(data) - sel) + AllElementIds(r.created.value)
  {
    InsertGroupIds(data, CreateGroup(data, newId, parent, None, sel).value, sel, order);
  }

  /**
    The create-group action as written: the parent payload handed to
    `createGroup` is the analysis's payload, the first selected id.
   */
  function CreateGroupAction(data: seq<Element>, sel: set<Id>, newId: Id, order: seq<Id>): (r: CreateGroupEffect)
    requires newId !in ForestIds(data)
    requires Enumerates(order, sel)
    ensures r.selections == {} && !r.isEditing
    ensures r.created.None? ==> r.data == data
    ensures CreateGroupEnabled(data, sel) && Unique(data) ==>
              r.created == GroupForOwner(newId, FirstOwner(Flatten(data), ContainsValidGroup(data, sel).parent.value), sel)
  {
    match ContainsValidGroup(data, sel).ParentId()
    case Some(p) =>
      CreateGroupFindsOwner(data, newId, p, sel);
      CreateGroupWith(data, sel, newId, order, Some(p))
    case None => CreateGroupWith(data, sel, newId, order, None)
  }

  /**
    The create-group action with the payload the analysis is meant to
    deliver: the parent of the groupable level.
   */
  function CreateGroupActionIntended(data: seq<Element>, sel: set<Id>, newId: Id, order: seq<Id>)
    : (r: CreateGroupEffect)
    requires newId !in ForestIds(data)
    requires Enumerates(order, sel)
    ensures r.selections == {} && !r.isEditing
    ensures r.created.None? ==> r.data == data
  {
    CreateGroupWith(data, sel, newId, order, ContainsValidGroupIntended(data, sel).ParentId())
  }

  /**
    With the intended payload an enabled button always groups: the new group
    holds the selected elements of the groupable level, in order, and the
    forest stays unique with exactly one new id, the group's.
   */
  lemma IntendedCreateGroupMovesSelection(data: seq<Element>, sel: set<Id>, newId: Id, order: seq<Id>)
    returns (level: seq<Element>, owner: Option<Element>)
    requires Unique(data) && newId !in ForestIds(data) && Enumerates(order, sel)
    requires CreateGroupEnabled(data, sel)
    ensures owner.None? ==> level == data
    ensures owner.Some? ==> owner.value in Flatten(data) && owner.value.children == Present(level)
    ensures Groupable(level, sel)
    ensures CreateGroupActionIntended(data, sel, newId, order).created == Some(GroupOf(newId, Selected(level, sel)))
    ensures Unique(CreateGroupActionIntended(data, sel, newId, order).data)
    ensures ForestIds(CreateGroupActionIntended(data, sel, newId, order).data) == ForestIds(data) + {newId}
  {
    level, owner := IntendedGroupCollectsLevel(data, newId, sel);
    InsertGroupAtLevel(data, sel, order, newId, level, owner);
  }

  /**
    As written, an enabled button can do nothing at all: three plain
    elements `1, 2, 3` with `2` and `3` selected form a valid group, yet no
    group is built because the payload names the plain element `2`; the
    intended action wraps `2` and `3` into the new group `9`.
   */
  lemma CreateGroupDoesNothingExample()
    ensures var a, b, c := Element(1, Absent, None), Element(2, Absent, None), Element(3, Absent, None);
            var f, sel, order := [a, b, c], {2, 3}, [2, 3];
            9 !in ForestIds(f) && Enumerates(order, sel)
            && CreateGroupEnabled(f, sel)
            && CreateGroupAction(f, sel, 9, order).data == f
            && CreateGroupAction(f, sel, 9, order).created == None
            && CreateGroupActionIntended(f, sel, 9, order).data == [a, GroupOf(9, [b, c])]
  {
    var a, b, c := Element(1, Absent, None), Element(2, Absent, None), Element(3, Absent, None);
    var f, sel, order := [a, b, c], {2, 3}, [2, 3];
    FlatExampleAnalysis();
    assert CreateGroup(f, 9, Some(2), None, sel) == None by {
      FlatExampleNoOwner();
      CreateGroupFindsOwner(f, 9, 2, sel);
    }
    assert CreateGroupAction(f, sel, 9, order) == CreateGroupEffect(f, {}, false, None);
    assert CreateGroup(f, 9, None, None, sel) == Some(GroupOf(9, [b, c]));
    FlatExampleInsert();
  }

  lemma FlatExampleAnalysis()
    ensures var a, b, c := Element(1, Absent, None), Element(2, Absent, None), Element(3, Absent, None);
            var f, sel := [a, b, c], {2, 3};
            ForestIds(f) == {1, 2, 3} && Selected(f, sel) == [b, c]
            && FindLowestIndex(f, sel) == Some(1)
            && ContainsValidGroup(f, sel) == Valid(Some(2))
            && ContainsValidGroupIntended(f, sel) == Valid(None)
  {
    var a, b, c := Element(1, Absent, None), Element(2, Absent, None), Element(3, Absent, None);
    var f, sel := [a, b, c], {2, 3};
    assert f[1..] == [b, c] && [b, c][1..] == [c] && [c][1..] == [];
    assert ForestIds([c]) == {3};
    assert ForestIds([b, c]) == {2, 3};
    assert Selected(f, sel) == [b, c];
  }

  lemma FlatExampleNoOwner()
    ensures var a, b, c := Element(1, Absent, None), Element(2, Absent, None), Element(3, Absent, None);
            Flatten([a, b, c]) == [a, b, c] && FirstOwner([a, b, c], 2) == None
  {
    var a, b, c := Element(1, Absent, None), Element(2, Absent, None), Element(3, Absent, None);
    assert [a, b, c][1..] == [b, c] && [b, c][1..] == [c] && [c][1..] == [];
    assert Flatten([c]) == [c];
    assert Flatten([b, c]) == [b, c];
  }

  lemma FlatExampleInsert()
    ensures var a, b, c := Element(1, Absent, None), Element(2, Absent, None), Element(3, Absent, None);
            InsertGroup([a, b, c], GroupOf(9, [b, c]), {2, 3}, [2, 3]) == [a, GroupOf(9, [b, c])]
  {
    FlatExampleAnalysis();
    FlatExampleRemoval();
  }

  lemma FlatExampleRemoval()
    ensures var a, b, c := Element(1, Absent, None), Element(2, Absent, None), Element(3, Absent, None);
            RemoveAll([a, b, c], [2, 3]) == [a]
  {
    var a, b, c := Element(1, Absent, None), Element(2, Absent, None), Element(3, Absent, None);
    assert Remove([a, b, c], 2) == [a, c] by {
      assert [a, b, c][1..] == [b, c] && [b, c][1..] == [c];
      assert Remove([c], 2) == [c] by {
        assert [c][1..] == [];
      }
      assert Remove([b, c], 2) == [c];
    }
    assert Remove([a, c], 3) == [a] by {
      assert [a, c][1..] == [c] && [c][1..] == [];
    }
    assert [2, 3][1..] == [3] && [3][1..] == [];
  }

  /**
    As written, an enabled button can lose an element: with `1` plain and
    group `2` holding `3`, selecting `2` and `3` builds the new group from
    `2`'s children and removes `2` itself, so id `2` is gone afterwards.
   */
  lemma CreateGroupLosesElementExample()
    ensures var a, c := Element(1, Absent, None), Element(3, Absent, None);
            var b := Element(2, Present([c]), None);
            var f, sel, order := [a, b], {2, 3}, [2, 3];
            9 !in ForestIds(f) && Enumerates(order, sel)
            && CreateGroupEnabled(f, sel)
            && CreateGroupAction(f, sel, 9, order).data == [a, GroupOf(9, [c])]
            && 2 !in ForestIds(CreateGroupAction(f, sel, 9, order).data)
            && CreateGroupActionIntended(f, sel, 9, order).data == [a, GroupOf(9, [b])]
  {
    NestedExampleAnalysis();
    NestedExampleAsWritten();
    NestedExampleIntended();
    NestedExampleResultIds();
  }

  lemma NestedExampleAsWritten()
    ensures var a, c := Element(1, Absent, None), Element(3, Absent, None);
            var b := Element(2, Present([c]), None);
            var f, sel, order := [a, b], {2, 3}, [2, 3];
            9 !in ForestIds(f) && Enumerates(order, sel)
            && CreateGroupAction(f, sel, 9, order).data == [a, GroupOf(9, [c])]
  {
    var a, c := Element(1, Absent, None), Element(3, Absent, None);
    var b := Element(2, Present([c]), None);
    var f, sel, order := [a, b], {2, 3}, [2, 3];
    NestedExampleAnalysis();
    assert CreateGroup(f, 9, Some(2), None, sel) == Some(GroupOf(9, [c])) by {
      NestedExampleOwner();
      CreateGroupFindsOwner(f, 9, 2, sel);
      assert Kids(b) == [c];
      assert Selected([c], sel) == [c] by {
        assert [c][1..] == [];
      }
    }
    NestedExampleInsert();
  }

  lemma NestedExampleIntended()
    ensures var a, c := Element(1, Absent, None), Element(3, Absent, None);
            var b := Element(2, Present([c]), None);
            var f, sel, order := [a, b], {2, 3}, [2, 3];
            9 !in ForestIds(f) && Enumerates(order, sel)
            && CreateGroupActionIntended(f, sel, 9, order).data == [a, GroupOf(9, [b])]
  {
    NestedExampleAnalysis();
    NestedExampleInsert();
  }

  lemma NestedExampleResultIds()
    ensures ForestIds([Element(1, Absent, None), GroupOf(9, [Element(3, Absent, None)])]) == {1, 9, 3}
  {
    var a, c := Element(1, Absent, None), Element(3, Absent, None);
    assert [a, GroupOf(9, [c])][1..] == [GroupOf(9, [c])];
    assert [GroupOf(9, [c])][1..] == [] && [c][1..] == [];
    assert ForestIds([c]) == {3};
    assert AllElementIds(GroupOf(9, [c])) == {9, 3};
  }

  lemma NestedExampleAnalysis()
    ensures var a, c := Element(1, Absent, None), Element(3, Absent, None);
            var b := Element(2, Present([c]), None);
            var f, sel := [a, b], {2, 3};
            ForestIds(f) == {1, 2, 3} && Selected(f, sel) == [b]
            && FindLowestIndex(f, sel) == Some(1)
            && ContainsValidGroup(f, sel) == Valid(Some(2))
            && ContainsValidGroupIntended(f, sel) == Valid(None)
  {
    var a, c := Element(1, Absent, None), Element(3, Absent, None);
    var b := Element(2, Present([c]), None);
    var f, sel := [a, b], {2, 3};
    assert f[1..] == [b] && [b][1..] == [] && [c][1..] == [];
    assert ForestIds([c]) == {3};
    assert AllElementIds(b) == {2, 3};
    assert ForestIds([b]) == {2, 3};
    assert Selected(f, sel) == [b];
  }

  lemma NestedExampleOwner()
    ensures var a, c := Element(1, Absent, None), Element(3, Absent, None);
            var b := Element(2, Present([c]), None);
            Flatten([a, b]) == [a, b, c] && FirstOwner([a, b, c], 2) == Some(b)
  {
    var a, c := Element(1, Absent, None), Element(3, Absent, None);
    var b := Element(2, Present([c]), None);
    assert [a, b][1..] == [b] && [b][1..] == [] && [c][1..] == [];
    assert Flatten([c]) == [c];
    assert Flatten([b]) == [b, c];
    assert [a, b, c][1..] == [b, c];
  }

  lemma NestedExampleInsert()
    ensures var a, c := Element(1, Absent, None), Element(3, Absent, None);
            var b := Element(2, Present([c]), None);
            forall g :: InsertGroup([a, b], g, {2, 3}, [2, 3]) == [a, g]
  {
    var a, c := Element(1, Absent, None), Element(3, Absent, None);
    var b := Element(2, Present([c]), None);
    var f, sel, order := [a, b], {2, 3}, [2, 3];
    NestedExampleAnalysis();
    assert f[1..] == [b] && [b][1..] == [];
    assert Remove(f, 2) == [a];
    assert RemoveAll(f, order) == [a] by {
      assert order[1..] == [3];
      assert Remove([a], 3) == [a];
      assert RemoveAll([a], []) == [a];
    }
  }

  // ---------------------------------------------------------------------------
  // Ungroup
  // ---------------------------------------------------------------------------

  datatype UngroupEffect = UngroupEffect(data: seq<Element>, selections: set<Id>, editMode: EditMode,
                                         ungrouped: Option<Id>)

  /** `selectedGroupId`: the payload of the ungroup analysis, never the root. */
  function SelectedGroupId(data: seq<Element>, sel: set<Id>): (r: Option<Id>)
    ensures r.Some? ==> r.value in sel && r.value in ForestIds(data)
    ensures r.Some? <==> ContainsValidUngroup(data, sel).IsValidGroup()
  {
    ContainsValidUngroup(data, sel).ParentId()
  }

  predicate UngroupEnabled(data: seq<Element>, sel: set<Id>) {
    SelectedGroupId(data, sel).Some?
  }

  /**
    The ungroup action: with a selected group, dissolve it and report its
    id; in any case clear the selection and leave edit mode.
   */
  function UngroupAction(data: seq<Element>, sel: set<Id>): (r: UngroupEffect)
    ensures r.selections == {} && r.editMode == Inactive
    ensures r.ungrouped == SelectedGroupId(data, sel)
    ensures r.ungrouped.None? ==> r.data == data
    ensures r.ungrouped.Some? ==> ForestIds(r.data) <= ForestIds(data)
  {
    match SelectedGroupId(data, sel)
    case Some(gid) => UngroupEffect(Ungroup(data, gid), {}, Inactive, Some(gid))
    case None => UngroupEffect(data, {}, Inactive, None)
  }

  /**
    Under uniqueness the button is enabled exactly when the first selected
    element in pre-order is a group whose tree is the whole selection, and
    pressing it dissolves that group: the pre-order listing loses only the
    group's id.
   */
  lemma UngroupActionDissolvesSelectedGroup(data: seq<Element>, sel: set<Id>)
    requires Unique(data)
    ensures UngroupEnabled(data, sel) <==>
              var first := FirstWithId(Flatten(data), sel);
              first.Some? && IsGroup(first.value) && AllElementIds(first.value) == sel
    ensures UngroupEnabled(data, sel) ==>
              var r := UngroupAction(data, sel);
              r.ungrouped == Some(FirstWithId(Flatten(data), sel).value.id)
              && Order(r.data) == Without(Order(data), r.ungrouped.value)
              && Unique(r.data) && ForestIds(r.data) == ForestIds(data) - {r.ungrouped.value}
  {
    UngroupDecidedByFirstSelected(data, sel);
    if UngroupEnabled(data, sel) {
      var gid := SelectedGroupId(data, sel).value;
      UngroupKeepsOrder(data, gid);
      UngroupKeepsUnique(data, gid);
    }
  }

  // ---------------------------------------------------------------------------
  // Delete selections
  // ---------------------------------------------------------------------------

  datatype DeleteEffect = DeleteEffect(data: seq<Element>, selections: set<Id>, editMode: EditMode,
                                       reported: set<Id>)

  /** The button is disabled exactly when nothing is selected. */
  predicate DeleteEnabled(sel: set<Id>) {
    sel != {}
  }

  /**
    The delete action: report the selection as it was, remove each selected
    id in the set's enumeration order, then clear the selection and leave
    edit mode.
   */
  function DeleteSelectionsAction(data: seq<Element>, sel: set<Id>, order: seq<Id>): (r: DeleteEffect)
    requires Enumerates(order, sel)
    ensures r.reported == sel && r.selections == {} && r.editMode == Inactive
    ensures ForestIds(r.data) <= ForestIds(data)
    ensures sel !! ForestIds(data) ==> r.data == data
  {
    assert sel !! ForestIds(data) ==> RemoveAll(data, order) == data by {
      if sel !! ForestIds(data) {
        RemoveAllUntouched(data, order);
      }
    }
    DeleteEffect(RemoveAll(data, order), {}, Inactive, sel)
  }

  /** Under uniqueness no selected id remains after deletion, and the forest stays unique. */
  lemma DeleteSelectionsRemovesSelected(data: seq<Element>, sel: set<Id>, order: seq<Id>)
    requires Unique(data) && Enumerates(order, sel)
    ensures Unique(DeleteSelectionsAction(data, sel, order).data)
    ensures sel !! ForestIds(DeleteSelectionsAction(data, sel, order).data)
  {
    RemoveAllKeepsUnique(data, order);
    forall x | x in sel ensures x !in ForestIds(DeleteSelectionsAction(data, sel, order).data) {
      assert x in order;
    }
  }

  /**
    When the selection is descendant-closed (the row views select a
    group's children with the group), deletion under uniqueness removes
    exactly the selected ids and nothing else.
   */
  lemma DeleteRemovesExactlyClosedSelection(data: seq<Element>, sel: set<Id>, order: seq<Id>)
    requires Unique(data) && Enumerates(order, sel) && Closed(data, sel)
    ensures ForestIds(DeleteSelectionsAction(data, sel, order).data) == ForestIds(data) - sel
  {
    RemoveAllWithinClosed(data, order, sel);
    DeleteSelectionsRemovesSelected(data, sel, order);
  }
}

=== FILE: drag.dfy ===
/**
  Drag-to-reorder decision rules: the per-row transition driven by the
  pointer position, and the relocation that runs whenever the drag candidate
  changes. Pointer capture is an input here; coordinates are reals, and only
  one addition and comparisons are applied to them.
 */
module Drag {
  import opened Wrappers
  import opened Forest
  import opened Queries
  import opened Mutation
  import opened LegacyModel

  /** The two bindings a row reads and writes: the dragged snapshot and the candidate id. */
  datatype DragState = DragState(dragged: Option<Element>, candidate: Option<Id>)

  datatype Point = Point(x: real, y: real)

  /** A row's vertical extent in the list's coordinate space. */
  datatype RowFrame = RowFrame(minY: real, maxY: real)

  /** Strictly between the row's bounds; a y on either bound is not on the row. */
  predicate OnRow(y: real, frame: RowFrame) {
    frame.minY < y < frame.maxY
  }

  /** Below the last row while a drag is active. */
  predicate PastLast(y: real, frame: RowFrame, isLast: bool, s: DragState) {
    isLast && y > frame.maxY && s.dragged.Some?
  }

  /**
    The row's reaction to a new pointer position (`DragIndexReader`): no
    position ends the drag; a position on the row makes this row the
    candidate and starts a drag with this row's element if none is active;
    a position below the last row during a drag clears the candidate; any
    other position changes nothing.
   */
  function OnDragPosition(s: DragState, item: Element, position: Option<Point>, yOffset: real,
                          frame: RowFrame, isLast: bool): (r: DragState)
    ensures position.None? ==> r == DragState(None, None)
    ensures position.Some? && s.dragged.Some? ==> r.dragged == s.dragged
    ensures position.Some? && s.dragged.None? ==> r.dragged.None? || r.dragged == Some(item)
    ensures position.Some? ==>
              var y := position.value.y + yOffset;
              (OnRow(y, frame) ==> r.candidate == Some(item.id) && r.dragged.Some?)
              && (r.candidate.None? && s.candidate.Some? ==> PastLast(y, frame, isLast, s))
              && (r.dragged != s.dragged ==> OnRow(y, frame))
              && (!OnRow(y, frame) && !PastLast(y, frame, isLast, s) ==> r == s)
              && (PastLast(y, frame, isLast, s) ==> r == DragState(s.dragged, None))
  {
    match position
    case None => DragState(None, None)
    case Some(p) =>
      var y := p.y + yOffset;
      var didDragPastLastElement := isLast && y > frame.maxY && s.dragged.Some?;
      var didDragToThisItem := y > frame.minY && y < frame.maxY;
      var newDrag := s.dragged.None?;
      if didDragToThisItem then
        DragState(if newDrag then Some(item) else s.dragged, Some(item.id))
      else if didDragPastLastElement then
        DragState(s.dragged, None)
      else s
  }

  /** Only y is consulted, and only after the offset is added to it. */
  lemma OnlyOffsetYMatters(s: DragState, item: Element, p: Point, yOffset: real, frame: RowFrame, isLast: bool)
    ensures OnDragPosition(s, item, Some(p), yOffset, frame, isLast)
            == OnDragPosition(s, item, Some(Point(0.0, p.y + yOffset)), 0.0, frame, isLast)
  {
  }

  /**
    The relocation handler of the current list view (`onChange(of:
    dragCandidateItemId)`): with a dragged snapshot and a candidate other
    than the snapshot's own id, the dragged id is removed and the snapshot
    inserted before the candidate (at the root end if the candidate is gone);
    in every other case the data is left as it was.
   */
  function Relocate(data: seq<Element>, s: DragState): (r: seq<Element>)
    ensures s.dragged.None? || s.candidate.None? ==> r == data
    ensures s.dragged.Some? && s.candidate == Some(s.dragged.value.id) ==> r == data
    ensures s.dragged.Some? && s.candidate.Some? && s.candidate != Some(s.dragged.value.id) ==>
              var rest := Remove(data, s.dragged.value.id);
              (s.candidate.value in ForestIds(rest) ==> PlacedBefore(rest, r, s.dragged.value, s.candidate.value))
              && (s.candidate.value in ForestIds(rest) ==> NestedBefore(rest, r, s.dragged.value, s.candidate.value, None))
              && (s.candidate.value !in ForestIds(rest) ==> r == rest + [s.dragged.value])
  {
    match s.dragged
    case None => data
    case Some(d) =>
      if Some(d.id) == s.candidate then data
      else
        match s.candidate
        case Some(c) => Insert(Remove(data, d.id), d, Some(c))
        case None => data
  }

  /**
    A snapshot that is still the forest's element for its id is moved, not
    copied or lost: under uniqueness the relocated forest is unique and has
    exactly the ids it had before.
   */
  lemma RelocateKeepsForest(data: seq<Element>, s: DragState)
    requires Unique(data)
    requires s.dragged.Some? ==> Get(data, s.dragged.value.id) == s.dragged
    ensures Unique(Relocate(data, s))
    ensures ForestIds(Relocate(data, s)) == ForestIds(data)
  {
    if s.dragged.Some? && s.candidate.Some? && s.candidate != Some(s.dragged.value.id) {
      var d := s.dragged.value;
      var rest := Remove(data, d.id);
      RemoveKeepsUnique(data, d.id);
      var pre, post := RemoveCutsSubtree(data, d.id);
      DistinctAppend(pre + ElementOrder(d), post);
      DistinctAppend(pre, ElementOrder(d));
      FlattenedIdsWithin(data, d);
      InsertKeepsUnique(rest, d, s.candidate);
    }
  }

  /**
    The relocation handler of the older list view: the same guards, but the
    insertion is the older one without the root fallback.
   */
  function LegacyRelocate(data: seq<Element>, s: DragState): (r: seq<Element>)
    ensures s.dragged.None? || s.candidate.None? ==> r == data
    ensures s.dragged.Some? && s.candidate == Some(s.dragged.value.id) ==> r == data
    ensures s.dragged.Some? && s.candidate.Some? && s.candidate != Some(s.dragged.value.id)
            && s.candidate.value !in ForestIds(Remove(data, s.dragged.value.id))
            ==> r == Remove(data, s.dragged.value.id)
  {
    match s.dragged
    case None => data
    case Some(d) =>
      if Some(d.id) == s.candidate then data
      else
        match s.candidate
        case Some(c) => LegacyInsert(Remove(data, d.id), d, c)
        case None => data
  }

  /**
    As written, the older handler loses the dragged element when the
    candidate lies inside the dragged element's own tree: removing the
    dragged element takes the candidate with it, and the older insertion
    then finds no anchor.
   */
  lemma LegacyRelocateLosesDragged(data: seq<Element>, s: DragState)
    requires Unique(data)
    requires s.dragged.Some? && Get(data, s.dragged.value.id) == s.dragged
    requires s.candidate.Some? && s.candidate.value in AllElementIds(s.dragged.value)
    requires s.candidate != Some(s.dragged.value.id)
    ensures s.dragged.value.id !in ForestIds(LegacyRelocate(data, s))
    ensures ForestIds(LegacyRelocate(data, s)) == ForestIds(data) - AllElementIds(s.dragged.value)
  {
    var d := s.dragged.value;
    RemoveKeepsUnique(data, d.id);
  }

  /**
    Whenever the candidate survives the removal, the two handlers agree under
    uniqueness; they differ only where the older one drops the element.
   */
  lemma LegacyRelocateAgrees(data: seq<Element>, s: DragState)
    requires Unique(data)
    requires s.dragged.Some? && s.candidate.Some?
    requires s.candidate.value in ForestIds(Remove(data, s.dragged.value.id))
    ensures LegacyRelocate(data, s) == Relocate(data, s)
  {
    var d := s.dragged.value;
    if s.candidate != Some(d.id) {
      RemoveKeepsUnique(data, d.id);
      LegacyInsertAgrees(Remove(data, d.id), d, s.candidate.value);
    }
  }

  /**
    A small demonstration of the loss: a group `1` with child `2`, dragged
    over its own child, vanishes from a forest that held nothing else.
   */
  lemma LegacyRelocateLossExample()
    ensures var g := Element(1, Present([Element(2, Absent, None)]), Some(true));
            LegacyRelocate([g], DragState(Some(g), Some(2))) == []
            && Relocate([g], DragState(Some(g), Some(2))) == [g]
  {
    var g := Element(1, Present([Element(2, Absent, None)]), Some(true));
    assert Remove([g], 1) == [];
    assert 2 !in ForestIds([]);
  }
}

=== FILE: forest.dfy ===
/**
  The nested-forest data model of the list widget: elements with an identity,
  a three-state children field and an optional "expanded" flag, and the
  read-only queries over a forest (a root-level sequence of elements).
 */
module Forest {
  import opened Wrappers

  /** Identities are compared only for equality; `int` stands in for the generic ID. */
  type Id = int

  /** `Absent` is a leaf (`children == nil`); `Present([])` is an empty group. */
  datatype Children = Absent | Present(items: seq<Element>)

  datatype Element = Element(id: Id, children: Children, expanded: Option<bool>)

  /** An element is a group exactly when its children are present, even if empty. */
  predicate IsGroup(e: Element) {
    e.children.Present?
  }

  /** The children of `e`, or the empty sequence for a leaf (`children ?? []`). */
  function Kids(e: Element): seq<Element> {
    match e.children
    case Absent => []
    case Present(items) => items
  }

  /** `e` with its children replaced (keeps a leaf a leaf, as optional chaining does). */
  function MapChildren(e: Element, items: seq<Element>): (r: Element)
    ensures r.id == e.id && r.expanded == e.expanded && IsGroup(r) == IsGroup(e)
    ensures Kids(r) == if IsGroup(e) then items else []
    ensures items == Kids(e) ==> r == e
  {
    match e.children
    case Absent => e
    case Present(_) => e.(children := Present(items))
  }

  /** Number of elements in the tree rooted at `e`; the termination measure. */
  function Size(e: Element): nat {
    1 + match e.children
        case Absent => 0
        case Present(items) => ForestSize(items)
  }

  function ForestSize(f: seq<Element>): nat {
    if f == [] then 0 else Size(f[0]) + ForestSize(f[1..])
  }

  lemma SizeDecreases(f: seq<Element>)
    requires f != []
    ensures ForestSize(Kids(f[0])) < ForestSize(f)
    ensures ForestSize(f[1..]) < ForestSize(f)
  {
  }

  /** The element's own id together with the ids of all its descendants. */
  function AllElementIds(e: Element): set<Id> {
    {e.id} + match e.children
             case Absent => {}
             case Present(items) => ForestIds(items)
  }

  /** The ids of every element of the forest, at any depth. */
  function ForestIds(f: seq<Element>): set<Id> {
    if f == [] then {} else AllElementIds(f[0]) + ForestIds(f[1..])
  }

  /** Pre-order listing: each element, then its children's listing, then the later siblings. */
  function Flatten(f: seq<Element>): seq<Element>
    decreases ForestSize(f)
  {
    if f == [] then []
    else
      SizeDecreases(f);
      [f[0]] + Flatten(Kids(f[0])) + Flatten(f[1..])
  }

  /** The ids of a sequence of elements, in order. */
  function Ids(s: seq<Element>): (r: seq<Id>)
    ensures |r| == |s|
  {
    if s == [] then [] else [s[0].id] + Ids(s[1..])
  }

  lemma {:induction false} IdsIndex(s: seq<Element>, i: int)
    requires 0 <= i < |s|
    ensures Ids(s)[i] == s[i].id
  {
    if i > 0 {
      IdsIndex(s[1..], i - 1);
    }
  }

  /** The ids of the forest in pre-order (the ids of `Flatten(f)`, see `OrderIsFlattenedIds`). */
  function Order(f: seq<Element>): seq<Id>
    decreases ForestSize(f)
  {
    if f == [] then []
    else
      SizeDecreases(f);
      [f[0].id] + Order(Kids(f[0])) + Order(f[1..])
  }

  /** The pre-order ids of the tree rooted at one element. */
  function ElementOrder(e: Element): seq<Id> {
    [e.id] + Order(Kids(e))
  }

  predicate Distinct(s: seq<Id>) {
    forall i, j :: 0 <= i < j < |s| ==> s[i] != s[j]
  }

  /** Identity uniqueness across the whole forest: no id repeats in the pre-order listing. */
  predicate Unique(f: seq<Element>) {
    Distinct(Order(f))
  }

  /** One line of the nested listing: an id and the id of its parent, `None` at the root. */
  datatype Line = Line(id: Id, parent: Option<Id>)

  /**
    The pre-order listing with every id paired with its parent's id; the
    elements of `f` itself get `parent`. Unlike `Order` it fixes the nesting.
   */
  function Outline(f: seq<Element>, parent: Option<Id>): seq<Line>
    decreases ForestSize(f)
  {
    if f == [] then []
    else
      SizeDecreases(f);
      [Line(f[0].id, parent)] + Outline(Kids(f[0]), Some(f[0].id)) + Outline(f[1..], parent)
  }

  /** The nested listing of the tree rooted at one element whose parent is `parent`. */
  function ElementOutline(e: Element, parent: Option<Id>): seq<Line> {
    [Line(e.id, parent)] + Outline(Kids(e), Some(e.id))
  }

  // ---------------------------------------------------------------------------
  // Structure of the pre-order listing
  // ---------------------------------------------------------------------------

  lemma {:induction false} IdsAppend(a: seq<Element>, b: seq<Element>)
    ensures Ids(a + b) == Ids(a) + Ids(b)
    decreases |a|
  {
    if a == [] {
      assert a + b == b;
    } else {
      assert (a + b)[0] == a[0];
      assert (a + b)[1..] == a[1..] + b;
      IdsAppend(a[1..], b);
    }
  }

  lemma {:induction false} FlattenAppend(a: seq<Element>, b: seq<Element>)
    ensures Flatten(a + b) == Flatten(a) + Flatten(b)
    decreases |a|
  {
    if a != [] {
      assert (a + b)[0] == a[0];
      assert (a + b)[1..] == a[1..] + b;
      FlattenAppend(a[1..], b);
    } else {
      assert a + b == b;
    }
  }

  /** The listing of a non-empty forest: the head's tree, then the later siblings. */
  lemma OrderCons(f: seq<Element>)
    requires f != []
    ensures Order(f) == ElementOrder(f[0]) + Order(f[1..])
  {
  }

  /** Every element of a level appears in the level's pre-order listing. */
  lemma RootFlattened(f: seq<Element>, k: nat)
    requires k < |f|
    ensures f[k] in Flatten(f)
  {
    assert f == f[..k] + f[k..];
    FlattenAppend(f[..k], f[k..]);
    assert Flatten(f[k..])[0] == f[k];
  }

  /** `Order` lists exactly the ids of the pre-order flattening. */
  lemma {:induction false} OrderIsFlattenedIds(f: seq<Element>)
    ensures Order(f) == Ids(Flatten(f))
    decreases ForestSize(f)
  {
    if f != [] {
      SizeDecreases(f);
      OrderIsFlattenedIds(Kids(f[0]));
      OrderIsFlattenedIds(f[1..]);
      IdsAppend([f[0]] + Flatten(Kids(f[0])), Flatten(f[1..]));
      IdsAppend([f[0]], Flatten(Kids(f[0])));
    }
  }

  lemma {:induction false} OrderAppend(a: seq<Element>, b: seq<Element>)
    ensures Order(a + b) == Order(a) + Order(b)
    decreases |a|
  {
    if a == [] {
      assert a + b == b;
    } else {
      assert (a + b)[0] == a[0];
      assert (a + b)[1..] == a[1..] + b;
      OrderAppend(a[1..], b);
    }
  }

  lemma {:induction false} ForestIdsAppend(a: seq<Element>, b: seq<Element>)
    ensures ForestIds(a + b) == ForestIds(a) + ForestIds(b)
    decreases |a|
  {
    if a == [] {
      assert a + b == b;
    } else {
      assert (a + b)[0] == a[0];
      assert (a + b)[1..] == a[1..] + b;
      ForestIdsAppend(a[1..], b);
    }
  }

  /** The ids listed in pre-order are exactly the ids of the forest. */
  lemma {:induction false} OrderIds(f: seq<Element>)
    ensures forall x :: x in Order(f) <==> x in ForestIds(f)
    decreases ForestSize(f)
  {
    if f != [] {
      SizeDecreases(f);
      OrderCons(f);
      OrderIds(Kids(f[0]));
      OrderIds(f[1..]);
    }
  }

  lemma ElementOrderIds(e: Element)
    ensures forall x :: x in ElementOrder(e) <==> x in AllElementIds(e)
  {
    OrderIds(Kids(e));
  }

  /** Every tree listed in the flattening contributes only ids of the forest. */
  lemma {:induction false} FlattenedIdsWithin(f: seq<Element>, e: Element)
    requires e in Flatten(f)
    ensures AllElementIds(e) <= ForestIds(f)
    decreases ForestSize(f)
  {
    SizeDecreases(f);
    if e == f[0] {
    } else if e in Flatten(Kids(f[0])) {
      FlattenedIdsWithin(Kids(f[0]), e);
    } else {
      FlattenedIdsWithin(f[1..], e);
    }
  }

  lemma DistinctAppend(a: seq<Id>, b: seq<Id>)
    ensures Distinct(a + b) <==>
            Distinct(a) && Distinct(b) && forall x :: x in a ==> x !in b
  {
    var ab := a + b;
    if Distinct(ab) {
      forall i, j | 0 <= i < |a| && 0 <= j < |b|
        ensures a[i] != b[j]
      {
        assert ab[i] == a[i] && ab[|a| + j] == b[j];
      }
      forall i, j | 0 <= i < j < |a|
        ensures a[i] != a[j]
      {
        assert ab[i] == a[i] && ab[j] == a[j];
      }
      forall i, j | 0 <= i < j < |b|
        ensures b[i] != b[j]
      {
        assert ab[|a| + i] == b[i] && ab[|a| + j] == b[j];
      }
    }
    if Distinct(a) && Distinct(b) && forall x :: x in a ==> x !in b {
      forall i, j | 0 <= i < j < |ab|
        ensures ab[i] != ab[j]
      {
        if j < |a| {
          assert ab[i] == a[i] && ab[j] == a[j];
        } else if i < |a| {
          assert ab[i] == a[i] && ab[j] == b[j - |a|];
          assert ab[i] in a;
        } else {
          assert ab[i] == b[i - |a|] && ab[j] == b[j - |a|];
        }
      }
    }
  }

  /** Uniqueness of a non-empty forest, level by level. */
  lemma UniqueCons(f: seq<Element>)
    requires f != []
    ensures Unique(f) <==>
            && f[0].id !in ForestIds(Kids(f[0]))
            && Unique(Kids(f[0]))
            && AllElementIds(f[0]) !! ForestIds(f[1..])
            && Unique(f[1..])
  {
    OrderCons(f);
    OrderIds(Kids(f[0]));
    OrderIds(f[1..]);
    ElementOrderIds(f[0]);
    DistinctAppend([f[0].id], Order(Kids(f[0])));
    DistinctAppend(ElementOrder(f[0]), Order(f[1..]));
    assert Distinct(ElementOrder(f[0])) <==>
           f[0].id !in ForestIds(Kids(f[0])) && Unique(Kids(f[0]));
    if AllElementIds(f[0]) !! ForestIds(f[1..]) {
      forall x | x in ElementOrder(f[0])
        ensures x !in Order(f[1..])
      {
        assert x in AllElementIds(f[0]);
      }
    }
    if forall x :: x in ElementOrder(f[0]) ==> x !in Order(f[1..]) {
      forall x | x in AllElementIds(f[0])
        ensures x !in ForestIds(f[1..])
      {
        assert x in ElementOrder(f[0]);
      }
    }
  }

  lemma {:induction false} OutlineAppend(a: seq<Element>, b: seq<Element>, parent: Option<Id>)
    ensures Outline(a + b, parent) == Outline(a, parent) + Outline(b, parent)
    decreases |a|
  {
    if a == [] {
      assert a + b == b;
    } else {
      assert (a + b)[0] == a[0];
      assert (a + b)[1..] == a[1..] + b;
      OutlineAppend(a[1..], b, parent);
    }
  }

  /** The nested listing carries the same ids, in the same order, as `Order`. */
  lemma {:induction false} OutlineIsOrder(f: seq<Element>, parent: Option<Id>)
    ensures |Outline(f, parent)| == |Order(f)|
    ensures forall i :: 0 <= i < |Order(f)| ==> Outline(f, parent)[i].id == Order(f)[i]
    decreases ForestSize(f)
  {
    if f != [] {
      SizeDecreases(f);
      OutlineIsOrder(Kids(f[0]), Some(f[0].id));
      OutlineIsOrder(f[1..], parent);
      var o, k, t := Outline(f, parent), Outline(Kids(f[0]), Some(f[0].id)), Outline(f[1..], parent);
      var ok, ot := Order(Kids(f[0])), Order(f[1..]);
      assert o == [Line(f[0].id, parent)] + k + t;
      assert Order(f) == [f[0].id] + ok + ot;
      forall i | 0 <= i < |Order(f)| ensures o[i].id == Order(f)[i] {
        if i == 0 {
        } else if i <= |k| {
          assert o[i] == k[i - 1] && Order(f)[i] == ok[i - 1];
        } else {
          assert o[i] == t[i - 1 - |k|] && Order(f)[i] == ot[i - 1 - |ok|];
        }
      }
    }
  }

  /**
    Regrouping a listing with a block spliced into its middle part, stated
    once so that the listing proofs stay small.
   */
  lemma Regroup<T>(head: seq<T>, pre: seq<T>, mid: seq<T>, post: seq<T>, tail: seq<T>)
    ensures head + (pre + mid + post) + tail == (head + pre) + mid + (post + tail)
    ensures head + (pre + mid + post) == (head + pre) + mid + post
    ensures head + (pre + post) + tail == (head + pre) + (post + tail)
    ensures head + (pre + post) == (head + pre) + post
  {
  }

  /** The nested listing of a non-empty forest: the head's tree, then the later siblings. */
  lemma OutlineCons(f: seq<Element>, parent: Option<Id>)
    requires f != []
    ensures Outline(f, parent) == ElementOutline(f[0], parent) + Outline(f[1..], parent)
  {
  }

  /** Each element of `f` itself is listed under `parent`. */
  lemma {:induction false} OutlineHasRoots(f: seq<Element>, parent: Option<Id>, k: int)
    requires 0 <= k < |f|
    ensures Line(f[k].id, parent) in Outline(f, parent)
  {
    if k > 0 {
      OutlineHasRoots(f[1..], parent, k - 1);
      assert f[1..][k - 1] == f[k];
    }
  }

  /** Every line of the nested listing names an id of the forest. */
  lemma {:induction false} OutlineIdsWithin(f: seq<Element>, parent: Option<Id>, l: Line)
    requires l in Outline(f, parent)
    ensures l.id in ForestIds(f)
    decreases ForestSize(f)
  {
    SizeDecreases(f);
    if l in Outline(Kids(f[0]), Some(f[0].id)) {
      OutlineIdsWithin(Kids(f[0]), Some(f[0].id), l);
    } else if l in Outline(f[1..], parent) {
      OutlineIdsWithin(f[1..], parent, l);
    }
  }

  /** Under uniqueness, two listed elements with the same id are the same position. */
  lemma UniqueFlattenedIds(f: seq<Element>, i: int, j: int)
    requires Unique(f)
    requires 0 <= i < |Flatten(f)| && 0 <= j < |Flatten(f)|
    requires Flatten(f)[i].id == Flatten(f)[j].id
    ensures i == j
  {
    OrderIsFlattenedIds(f);
    IdsIndex(Flatten(f), i);
    IdsIndex(Flatten(f), j);
  }
}

=== FILE: group_analysis.dfy ===
/**
  Selection analysis behind the grouping buttons: whether a selection can be
  wrapped into a new group (`containsValidGroup`) and whether it is exactly one
  group's tree (`containsValidUngroup`).
 */
module GroupAnalysis {
  import opened Wrappers
  import opened Forest
  import opened Queries

  /** Verdict of the analysis; `parent` is the id payload, `None` standing for the root. */
  datatype GroupCandidate = Valid(parent: Option<Id>) | Invalid
  {
    predicate IsValidGroup() { Valid? }

    function ParentId(): Option<Id> {
      if Valid? then parent else None
    }
  }

  /** The elements of one level whose own id is selected, in level order. */
  function Selected(level: seq<Element>, sel: set<Id>): (r: seq<Element>)
    ensures |r| <= |level|
    ensures forall i :: 0 <= i < |r| ==> r[i] in level && r[i].id in sel
    ensures forall i :: 0 <= i < |level| && level[i].id in sel ==> level[i] in r
    ensures r == [] <==> forall i :: 0 <= i < |level| ==> level[i].id !in sel
  {
    if level == [] then []
    else
      var rest := Selected(level[1..], sel);
      assert forall i :: 1 <= i < |level| ==> level[i] == level[1..][i - 1];
      if level[0].id in sel then [level[0]] + rest else rest
  }

  /**
    `findLowestIndex(amongst:)`: the smallest position of the level whose
    element is selected; its element is the first of `Selected`.
   */
  function FindLowestIndex(level: seq<Element>, ids: set<Id>): (r: Option<nat>)
    ensures r.Some? ==> r.value < |level| && level[r.value].id in ids
    ensures r.Some? ==> forall j :: 0 <= j < r.value ==> level[j].id !in ids
    ensures r.None? <==> forall j :: 0 <= j < |level| ==> level[j].id !in ids
    ensures r.Some? ==> Selected(level, ids) != [] && Selected(level, ids)[0] == level[r.value]
  {
    if level == [] then None
    else if level[0].id in ids then Some(0)
    else
      match FindLowestIndex(level[1..], ids)
      case None => None
      case Some(k) => Some(k + 1)
  }

  /** Result of the level search: the parent of the level found and its first selected id. */
  datatype LevelMatch = LevelFound(parent: Option<Id>, first: Option<Id>) | NoLevel

  /**
    The level search of `containsValidGroup` on one level whose parent is
    `parent`: the first level, top-down, holding a selected element decides;
    it matches when the trees of its selected elements make up the whole
    selection.
   */
  function FindGroupLevel(level: seq<Element>, sel: set<Id>, parent: Option<Id>): LevelMatch
    decreases ForestSize(level), 1
  {
    if level == [] || sel == {} then NoLevel
    else
      var validSet := ForestIds(Selected(level, sel));
      if validSet == {} then FirstGroupLevel(level, sel)
      else if validSet != sel then NoLevel
      else
        LevelFound(parent, match FindLowestIndex(level, sel)
                           case Some(k) => Some(level[k].id)
                           case None => None)
  }

  /** The first child level, in sibling order, where the search matches. */
  function FirstGroupLevel(level: seq<Element>, sel: set<Id>): LevelMatch
    decreases ForestSize(level), 0
  {
    if level == [] then NoLevel
    else
      SizeDecreases(level);
      match level[0].children
      case Present(items) =>
        var m := FindGroupLevel(items, sel, Some(level[0].id));
        if m.LevelFound? then m else FirstGroupLevel(level[1..], sel)
      case Absent => FirstGroupLevel(level[1..], sel)
  }

  /**
    `containsValidGroup(from:)` as written: the payload of a valid verdict is
    the id of the first selected element of the matching level, never the
    level's parent and never the root's `None`.
   */
  function ContainsValidGroup(f: seq<Element>, sel: set<Id>): (r: GroupCandidate)
    ensures f == [] || sel == {} ==> r == Invalid
    ensures r.Valid? ==> r.parent.Some? && r.parent.value in sel
  {
    match FindGroupLevel(f, sel, None)
    case LevelFound(_, first) => FirstFoundIsSelected(f, sel, None); Valid(first)
    case NoLevel => Invalid
  }

  /**
    The analysis with the payload its callers need: the id of the parent of
    the matching level (`None` for the root level).
   */
  function ContainsValidGroupIntended(f: seq<Element>, sel: set<Id>): (r: GroupCandidate)
    ensures r.IsValidGroup() <==> ContainsValidGroup(f, sel).IsValidGroup()
  {
    match FindGroupLevel(f, sel, None)
    case LevelFound(parent, _) => Valid(parent)
    case NoLevel => Invalid
  }

  /** A level of the forest: the root level or some element's children. */
  ghost predicate IsLevel(f: seq<Element>, level: seq<Element>) {
    level == f || exists e :: e in Flatten(f) && e.children == Present(level)
  }

  /** `level` can be grouped: the trees of its selected elements are the whole non-empty selection. */
  ghost predicate Groupable(level: seq<Element>, sel: set<Id>) {
    sel != {} && ForestIds(Selected(level, sel)) == sel
  }

  /**
    What a match found means: a groupable `level`, either the searched level
    itself (with the given parent) or the children of a listed `owner` whose
    id is the reported parent; the reported first id is the first selected
    element of that level.
   */
  lemma {:induction false} FindGroupLevelSound(f: seq<Element>, sel: set<Id>, parent: Option<Id>)
    returns (level: seq<Element>, owner: Option<Element>)
    requires FindGroupLevel(f, sel, parent).LevelFound?
    ensures Groupable(level, sel) && Selected(level, sel) != []
    ensures FindGroupLevel(f, sel, parent).first == Some(Selected(level, sel)[0].id)
    ensures owner.None? ==> level == f && FindGroupLevel(f, sel, parent).parent == parent
    ensures owner.Some? ==> owner.value in Flatten(f) && owner.value.children == Present(level)
                            && FindGroupLevel(f, sel, parent).parent == Some(owner.value.id)
    decreases ForestSize(f), 1
  {
    var validSet := ForestIds(Selected(f, sel));
    if validSet == {} {
      level, owner := FirstGroupLevelSound(f, sel);
    } else {
      level, owner := f, None;
      var k := FindLowestIndex(f, sel).value;
    }
  }

  /** A match found among child levels lies in the children of a listed owner. */
  lemma {:induction false} FirstGroupLevelSound(f: seq<Element>, sel: set<Id>)
    returns (level: seq<Element>, owner: Option<Element>)
    requires FirstGroupLevel(f, sel).LevelFound?
    ensures Groupable(level, sel) && Selected(level, sel) != []
    ensures FirstGroupLevel(f, sel).first == Some(Selected(level, sel)[0].id)
    ensures owner.Some? && owner.value in Flatten(f) && owner.value.children == Present(level)
    ensures FirstGroupLevel(f, sel).parent == Some(owner.value.id)
    decreases ForestSize(f), 0
  {
    SizeDecreases(f);
    assert Flatten(f) == [f[0]] + Flatten(Kids(f[0])) + Flatten(f[1..]);
    match f[0].children
    case Present(items) =>
      if FindGroupLevel(items, sel, Some(f[0].id)).LevelFound? {
        var o;
        level, o := FindGroupLevelSound(items, sel, Some(f[0].id));
        owner := if o.None? then Some(f[0]) else o;
      } else {
        level, owner := FirstGroupLevelSound(f[1..], sel);
      }
    case Absent =>
      level, owner := FirstGroupLevelSound(f[1..], sel);
  }

  /** The reported first id of a match is a selected id. */
  lemma FirstFoundIsSelected(f: seq<Element>, sel: set<Id>, parent: Option<Id>)
    requires FindGroupLevel(f, sel, parent).LevelFound?
    ensures FindGroupLevel(f, sel, parent).first.Some?
    ensures FindGroupLevel(f, sel, parent).first.value in sel
  {
    var level, owner := FindGroupLevelSound(f, sel, parent);
  }

  /**
    Under uniqueness a groupable level is found: the search from a level
    reaches every groupable level at or below it.
   */
  lemma {:induction false} FindGroupLevelComplete(f: seq<Element>, sel: set<Id>, parent: Option<Id>,
                                                  level: seq<Element>, owner: Option<Element>)
    requires Unique(f)
    requires Groupable(level, sel)
    requires owner.None? ==> level == f
    requires owner.Some? ==> owner.value in Flatten(f) && owner.value.children == Present(level)
    ensures FindGroupLevel(f, sel, parent).LevelFound?
    decreases ForestSize(f), 1
  {
    var chosen := Selected(level, sel);
    assert chosen != [];
    var validSet := ForestIds(Selected(f, sel));
    if owner.None? {
      assert validSet == sel;
    } else {
      assert f != [];
      if validSet == {} {
        FirstGroupLevelComplete(f, sel, level, owner.value);
      } else {
        var fs := Selected(f, sel);
        assert fs != [];
        var j :| 0 <= j < |f| && f[j] == fs[0];
        assert f[j].id in sel;
        SelectedIdsWithin(level, sel);
        RootNotBelow(f, owner.value, j);
        assert false;
      }
    }
  }

  /** The search over child levels reaches every groupable level below a listed owner. */
  lemma {:induction false} FirstGroupLevelComplete(f: seq<Element>, sel: set<Id>,
                                                   level: seq<Element>, owner: Element)
    requires Unique(f)
    requires Groupable(level, sel)
    requires owner in Flatten(f) && owner.children == Present(level)
    ensures FirstGroupLevel(f, sel).LevelFound?
    decreases ForestSize(f), 0
  {
    SizeDecreases(f);
    UniqueCons(f);
    assert Flatten(f) == [f[0]] + Flatten(Kids(f[0])) + Flatten(f[1..]);
    if owner == f[0] {
      FindGroupLevelComplete(level, sel, Some(f[0].id), level, None);
    } else if owner in Flatten(Kids(f[0])) {
      FindGroupLevelComplete(Kids(f[0]), sel, Some(f[0].id), level, Some(owner));
    } else {
      if !(f[0].children.Present? && FindGroupLevel(Kids(f[0]), sel, Some(f[0].id)).LevelFound?) {
        FirstGroupLevelComplete(f[1..], sel, level, owner);
      }
    }
  }

  /** The trees of a level's selected elements lie within the level. */
  lemma {:induction false} SelectedIdsWithin(level: seq<Element>, sel: set<Id>)
    ensures ForestIds(Selected(level, sel)) <= ForestIds(level)
  {
    if level != [] {
      SelectedIdsWithin(level[1..], sel);
    }
  }

  /**
    Under uniqueness the grouping verdict holds exactly when some level of
    the forest is groupable.
   */
  lemma ValidGroupIffGroupableLevel(f: seq<Element>, sel: set<Id>)
    requires Unique(f)
    ensures ContainsValidGroup(f, sel).IsValidGroup() <==> exists level :: IsLevel(f, level) && Groupable(level, sel)
  {
    if ContainsValidGroup(f, sel).IsValidGroup() {
      var level, owner := FindGroupLevelSound(f, sel, None);
      assert IsLevel(f, level);
    }
    if exists level :: IsLevel(f, level) && Groupable(level, sel) {
      var level :| IsLevel(f, level) && Groupable(level, sel);
      if level == f {
        FindGroupLevelComplete(f, sel, None, level, None);
      } else {
        var e :| e in Flatten(f) && e.children == Present(level);
        FindGroupLevelComplete(f, sel, None, level, Some(e));
      }
    }
  }

  /**
    `containsValidUngroup(from:)`: the first listed element carrying a
    selected id decides; it must be a group whose tree is exactly the
    selection. A root-level verdict from a nested search is rejected.
   */
  function ContainsValidUngroup(f: seq<Element>, sel: set<Id>): (r: GroupCandidate)
    ensures r.Valid? ==> r.parent.Some? && r.parent.value in sel
    ensures r.Valid? ==> r.parent.value in ForestIds(f)
    decreases ForestSize(f)
  {
    if f == [] then Invalid
    else if f[0].id in sel then
      if !IsGroup(f[0]) || AllElementIds(f[0]) != sel then Invalid
      else Valid(Some(f[0].id))
    else
      SizeDecreases(f);
      var nested := if IsGroup(f[0]) then ContainsValidUngroup(Kids(f[0]), sel) else Invalid;
      if nested.Valid? then
        (if nested.parent.None? then Invalid else nested)
      else ContainsValidUngroup(f[1..], sel)
  }

  /** The ungroup verdict for the first listed element carrying a selected id. */
  function UngroupVerdict(first: Option<Element>, sel: set<Id>): GroupCandidate {
    match first
    case Some(e) => if IsGroup(e) && AllElementIds(e) == sel then Valid(Some(e.id)) else Invalid
    case None => Invalid
  }

  /**
    Under uniqueness the ungroup analysis is decided by the first element, in
    pre-order, that carries a selected id: valid with that element's id when
    it is a group whose tree is exactly the selection, invalid otherwise.
   */
  lemma {:induction false} UngroupDecidedByFirstSelected(f: seq<Element>, sel: set<Id>)
    requires Unique(f)
    ensures ContainsValidUngroup(f, sel) == UngroupVerdict(FirstWithId(Flatten(f), sel), sel)
    decreases ForestSize(f)
  {
    if f != [] {
      SizeDecreases(f);
      UniqueCons(f);
      var kids, tail := Flatten(Kids(f[0])), Flatten(f[1..]);
      assert Flatten(f) == [f[0]] + kids + tail;
      FirstWithIdAppend([f[0]] + kids, tail, sel);
      FirstWithIdAppend([f[0]], kids, sel);
      if f[0].id !in sel {
        UngroupDecidedByFirstSelected(Kids(f[0]), sel);
        UngroupDecidedByFirstSelected(f[1..], sel);
        var fk := FirstWithId(kids, sel);
        if fk.Some? && !ContainsValidUngroup(Kids(f[0]), sel).Valid? {
          var ft := FirstWithId(tail, sel);
          if ContainsValidUngroup(f[1..], sel).Valid? {
            FlattenedIdsWithin(Kids(f[0]), fk.value);
            FlattenedIdsWithin(f[1..], ft.value);
            assert false;
          }
        }
      }
    }
  }
}

=== FILE: group_ops.dfy ===
/**
  The grouping operations: building a new group from a level's selected
  elements (`createGroup`), splicing it into the forest (`insertGroup`) and
  dissolving a group into its parent level (`ungroup`).
 */
module GroupOps {
  import opened Wrappers
  import opened Forest
  import opened Queries
  import opened Mutation
  import opened GroupAnalysis

  /** A new group: fresh id, the given children, shown expanded. */
  function GroupOf(newId: Id, items: seq<Element>): Element {
    Element(newId, Present(items), Some(true))
  }

  function Reverse(s: seq<Element>): (r: seq<Element>)
    ensures |r| == |s|
    ensures forall i :: 0 <= i < |s| ==> r[i] == s[|s| - 1 - i]
  {
    if s == [] then [] else Reverse(s[1..]) + [s[0]]
  }

  /** The selected elements of a level, collected by a walk from the last position to the first. */
  function SelectedFromBack(level: seq<Element>, sel: set<Id>): seq<Element> {
    if level == [] then []
    else
      var last := level[|level| - 1];
      (if last.id in sel then [last] else []) + SelectedFromBack(level[..|level| - 1], sel)
  }

  lemma ReverseAppend(s: seq<Element>, t: seq<Element>)
    ensures Reverse(s + t) == Reverse(t) + Reverse(s)
  {
    assert forall i :: 0 <= i < |s| + |t| ==> Reverse(s + t)[i] == (Reverse(t) + Reverse(s))[i];
  }

  lemma {:induction false} SelectedAppend(a: seq<Element>, b: seq<Element>, sel: set<Id>)
    ensures Selected(a + b, sel) == Selected(a, sel) + Selected(b, sel)
    decreases |a|
  {
    if a == [] {
      assert a + b == b;
    } else {
      assert (a + b)[0] == a[0];
      assert (a + b)[1..] == a[1..] + b;
      SelectedAppend(a[1..], b, sel);
    }
  }

  /**
    Collecting from the back and reversing the collection gives the selected
    elements in their original level order.
   */
  lemma {:induction false} ReversedCollectionIsSelected(level: seq<Element>, sel: set<Id>)
    ensures Reverse(SelectedFromBack(level, sel)) == Selected(level, sel)
    decreases |level|
  {
    if level != [] {
      var front, last := level[..|level| - 1], level[|level| - 1];
      var x := if last.id in sel then [last] else [];
      ReversedCollectionIsSelected(front, sel);
      ReverseAppend(x, SelectedFromBack(front, sel));
      assert level == front + [last];
      SelectedAppend(front, [last], sel);
      assert Selected([last], sel) == x;
      assert Reverse(x) == x;
    }
  }

  /**
    `createGroup(newGroupId:parentLayerGroupId:currentVisitedGroupId:selections:)`:
    at the level whose parent is `target` the new group collects that level's
    selected elements, in level order; elsewhere the search descends into the
    children of each element in turn.
   */
  function CreateGroup(f: seq<Element>, newId: Id, target: Option<Id>, current: Option<Id>, sel: set<Id>): (r: Option<Element>)
    ensures r.Some? ==> r.value.id == newId && IsGroup(r.value) && r.value.expanded == Some(true)
    ensures target == current ==> r == Some(GroupOf(newId, Selected(f, sel)))
    decreases ForestSize(f), 1
  {
    if target == current then
      ReversedCollectionIsSelected(f, sel);
      Some(GroupOf(newId, Reverse(SelectedFromBack(f, sel))))
    else FirstCreated(f, newId, target, sel)
  }

  /** The first group built while searching the children of each element of the level. */
  function FirstCreated(f: seq<Element>, newId: Id, target: Option<Id>, sel: set<Id>): (r: Option<Element>)
    ensures r.Some? ==> r.value.id == newId && IsGroup(r.value) && r.value.expanded == Some(true)
    decreases ForestSize(f), 0
  {
    if f == [] then None
    else
      SizeDecreases(f);
      match f[0].children
      case Present(items) =>
        var g := CreateGroup(items, newId, target, Some(f[0].id), sel);
        if g.Some? then g else FirstCreated(f[1..], newId, target, sel)
      case Absent => FirstCreated(f[1..], newId, target, sel)
  }

  /** Reference search: the first listed group whose id is `p`. */
  function FirstOwner(s: seq<Element>, p: Id): (r: Option<Element>)
    ensures r.Some? ==> r.value in s && r.value.id == p && IsGroup(r.value)
    ensures r.None? <==> forall i :: 0 <= i < |s| ==> !(s[i].id == p && IsGroup(s[i]))
  {
    if s == [] then None
    else if s[0].id == p && IsGroup(s[0]) then Some(s[0])
    else
      var r := FirstOwner(s[1..], p);
      assert forall i :: 1 <= i < |s| ==> s[i] == s[1..][i - 1];
      r
  }

  lemma {:induction false} FirstOwnerAppend(a: seq<Element>, b: seq<Element>, p: Id)
    ensures FirstOwner(a + b, p) == if FirstOwner(a, p).Some? then FirstOwner(a, p) else FirstOwner(b, p)
    decreases |a|
  {
    if a == [] {
      assert a + b == b;
    } else {
      assert (a + b)[0] == a[0];
      assert (a + b)[1..] == a[1..] + b;
      FirstOwnerAppend(a[1..], b, p);
    }
  }

  /** The group built for the children of a found owner. */
  function GroupForOwner(newId: Id, owner: Option<Element>, sel: set<Id>): Option<Element> {
    match owner
    case Some(e) => Some(GroupOf(newId, Selected(Kids(e), sel)))
    case None => None
  }

  /**
    Searching for a parent `p` builds the group from the children of the
    first group, in pre-order, whose id is `p`, and builds nothing when there
    is no such group.
   */
  lemma {:induction false} FirstCreatedFindsOwner(f: seq<Element>, newId: Id, p: Id, sel: set<Id>)
    ensures FirstCreated(f, newId, Some(p), sel) == GroupForOwner(newId, FirstOwner(Flatten(f), p), sel)
    decreases ForestSize(f)
  {
    if f != [] {
      SizeDecreases(f);
      assert Flatten(f) == [f[0]] + Flatten(Kids(f[0])) + Flatten(f[1..]);
      FirstOwnerAppend([f[0]] + Flatten(Kids(f[0])), Flatten(f[1..]), p);
      FirstOwnerAppend([f[0]], Flatten(Kids(f[0])), p);
      FirstCreatedFindsOwner(Kids(f[0]), newId, p, sel);
      FirstCreatedFindsOwner(f[1..], newId, p, sel);
    }
  }

  lemma CreateGroupFindsOwner(f: seq<Element>, newId: Id, p: Id, sel: set<Id>)
    ensures CreateGroup(f, newId, Some(p), None, sel) == GroupForOwner(newId, FirstOwner(Flatten(f), p), sel)
  {
    FirstCreatedFindsOwner(f, newId, p, sel);
  }

  /** Under uniqueness the first listed group with a listed group's id is that group. */
  lemma FirstOwnerUnique(f: seq<Element>, e: Element)
    requires Unique(f)
    requires e in Flatten(f) && IsGroup(e)
    ensures FirstOwner(Flatten(f), e.id) == Some(e)
  {
    var s := Flatten(f);
    var r := FirstOwner(s, e.id);
    var j :| 0 <= j < |s| && s[j] == e;
    var i :| 0 <= i < |s| && s[i] == r.value;
    UniqueFlattenedIds(f, i, j);
  }

  /**
    With the payload the analysis is meant to deliver, creation collects the
    selected elements of the groupable level the analysis found.
   */
  lemma IntendedGroupCollectsLevel(f: seq<Element>, newId: Id, sel: set<Id>)
    returns (level: seq<Element>, owner: Option<Element>)
    requires Unique(f)
    requires ContainsValidGroupIntended(f, sel).IsValidGroup()
    ensures Groupable(level, sel)
    ensures owner.None? ==> level == f
    ensures owner.Some? ==> owner.value in Flatten(f) && owner.value.children == Present(level)
    ensures CreateGroup(f, newId, ContainsValidGroupIntended(f, sel).ParentId(), None, sel)
            == Some(GroupOf(newId, Selected(level, sel)))
  {
    level, owner := FindGroupLevelSound(f, sel, None);
    if owner.Some? {
      CreateGroupFindsOwner(f, newId, owner.value.id, sel);
      FirstOwnerUnique(f, owner.value);
    }
  }

  /** `forEach` over a set visits each member: `order` lists exactly the members of `sel`. */
  predicate Enumerates(order: seq<Id>, sel: set<Id>) {
    (forall x | x in order :: x in sel) && (forall x | x in sel :: x in order)
  }

  /**
    `insertGroup(group:selections:)`: on the first level, top-down in each
    branch, that holds a selected element, every selected id is removed from
    that level's forest and `group` is inserted at the position of the first
    selected element; levels without one pass the call to each element's
    children.
   */
  function InsertGroup(f: seq<Element>, group: Element, sel: set<Id>, order: seq<Id>): (r: seq<Element>)
    requires Enumerates(order, sel)
    ensures FindLowestIndex(f, sel).Some? ==>
              var k := FindLowestIndex(f, sel).value;
              k < |r| && r[k] == group && r[..k] + r[k + 1..] == RemoveAll(f, order)
              && forall j :: 0 <= j < k ==> r[j].id == f[j].id
    ensures FindLowestIndex(f, sel).None? ==> |r| == |f|
    decreases ForestSize(f), 1
  {
    match FindLowestIndex(f, sel)
    case Some(k) =>
      var rest := RemoveAll(f, order);
      RemoveAllKeepsPrefix(f, order, sel, k);
      SpliceIn(rest, k, group)
    case None => InsertGroupEach(f, group, sel, order)
  }

  /** `insert(_:at:)`: `x` lands at index `k`, with everything before it unmoved. */
  function SpliceIn(s: seq<Element>, k: nat, x: Element): (r: seq<Element>)
    requires k <= |s|
    ensures |r| == |s| + 1 && r[k] == x
    ensures r[..k] + r[k + 1..] == s
    ensures forall j :: 0 <= j < k ==> r[j] == s[j]
  {
    var r := s[..k] + [x] + s[k..];
    assert r[..k] == s[..k] && r[k + 1..] == s[k..];
    assert s == s[..k] + s[k..];
    r
  }

  /** The level without selected elements: each element's children get the call. */
  function InsertGroupEach(f: seq<Element>, group: Element, sel: set<Id>, order: seq<Id>): (r: seq<Element>)
    requires Enumerates(order, sel)
    ensures |r| == |f|
    ensures forall j :: 0 <= j < |f| ==> r[j].id == f[j].id && IsGroup(r[j]) == IsGroup(f[j])
    decreases ForestSize(f), 0
  {
    if f == [] then []
    else
      SizeDecreases(f);
      var rest := InsertGroupEach(f[1..], group, sel, order);
      [MapChildren(f[0], InsertGroup(Kids(f[0]), group, sel, order))] + rest
  }

  /** A forest without any selected id is left as it was. */
  lemma {:induction false} InsertGroupUntouched(f: seq<Element>, group: Element, sel: set<Id>, order: seq<Id>)
    requires Enumerates(order, sel)
    requires sel !! ForestIds(f)
    ensures InsertGroup(f, group, sel, order) == f
    decreases ForestSize(f), 1
  {
    if f != [] {
      assert FindLowestIndex(f, sel).None? by {
        forall j | 0 <= j < |f| ensures f[j].id !in sel {
          RootIdsWithin(f, j);
        }
      }
      InsertGroupEachUntouched(f, group, sel, order);
    }
  }

  lemma {:induction false} InsertGroupEachUntouched(f: seq<Element>, group: Element, sel: set<Id>, order: seq<Id>)
    requires Enumerates(order, sel)
    requires sel !! ForestIds(f)
    ensures InsertGroupEach(f, group, sel, order) == f
    decreases ForestSize(f), 0
  {
    if f != [] {
      SizeDecreases(f);
      assert ForestIds(Kids(f[0])) <= ForestIds(f);
      InsertGroupUntouched(Kids(f[0]), group, sel, order);
      InsertGroupEachUntouched(f[1..], group, sel, order);
      assert f == [f[0]] + f[1..];
    }
  }

  /**
    Under uniqueness every id of the result is an unselected id of the forest
    or an id of the group: a selected id survives only inside the group.
   */
  lemma {:induction false} InsertGroupIds(f: seq<Element>, group: Element, sel: set<Id>, order: seq<Id>)
    requires Enumerates(order, sel)
    requires Unique(f)
    ensures ForestIds(InsertGroup(f, group, sel, order)) <= (ForestIds(f) - sel) + AllElementIds(group)
    decreases ForestSize(f), 1
  {
    match FindLowestIndex(f, sel)
    case Some(k) =>
      var rest := RemoveAll(f, order);
      RemoveAllKeepsUnique(f, order);
      RemoveAllKeepsPrefix(f, order, sel, k);
      SpliceIds(rest, k, group);
      forall x | x in ForestIds(rest) ensures x in ForestIds(f) - sel {
      }
    case None =>
      InsertGroupEachIds(f, group, sel, order);
  }

  lemma SpliceIds(rest: seq<Element>, k: nat, group: Element)
    requires k <= |rest|
    ensures ForestIds(SpliceIn(rest, k, group)) == ForestIds(rest) + AllElementIds(group)
  {
    assert rest == rest[..k] + rest[k..];
    ForestIdsAppend(rest[..k] + [group], rest[k..]);
    ForestIdsAppend(rest[..k], [group]);
    ForestIdsAppend(rest[..k], rest[k..]);
  }

  lemma {:induction false} InsertGroupEachIds(f: seq<Element>, group: Element, sel: set<Id>, order: seq<Id>)
    requires Enumerates(order, sel)
    requires Unique(f)
    requires forall j :: 0 <= j < |f| ==> f[j].id !in sel
    ensures ForestIds(InsertGroupEach(f, group, sel, order)) <= (ForestIds(f) - sel) + AllElementIds(group)
    decreases ForestSize(f), 0
  {
    if f != [] {
      SizeDecreases(f);
      UniqueCons(f);
      InsertGroupIds(Kids(f[0]), group, sel, order);
      InsertGroupEachIds(f[1..], group, sel, order);
      var r := InsertGroupEach(f, group, sel, order);
      assert r[1..] == InsertGroupEach(f[1..], group, sel, order);
      assert ForestIds(r) == AllElementIds(r[0]) + ForestIds(r[1..]);
    }
  }

  /** When the forest holds a selected id, the group is placed somewhere in the result. */
  lemma {:induction false} InsertGroupPlaces(f: seq<Element>, group: Element, sel: set<Id>, order: seq<Id>)
    requires Enumerates(order, sel)
    requires sel * ForestIds(f) != {}
    ensures group in Flatten(InsertGroup(f, group, sel, order))
    decreases ForestSize(f), 1
  {
    match FindLowestIndex(f, sel)
    case Some(k) =>
      RootFlattened(InsertGroup(f, group, sel, order), k);
    case None =>
      InsertGroupEachPlaces(f, group, sel, order);
  }

  lemma {:induction false} InsertGroupEachPlaces(f: seq<Element>, group: Element, sel: set<Id>, order: seq<Id>)
    requires Enumerates(order, sel)
    requires sel * ForestIds(f) != {}
    requires forall j :: 0 <= j < |f| ==> f[j].id !in sel
    ensures group in Flatten(InsertGroupEach(f, group, sel, order))
    decreases ForestSize(f), 0
  {
    SizeDecreases(f);
    var r := InsertGroupEach(f, group, sel, order);
    assert Flatten(r) == [r[0]] + Flatten(Kids(r[0])) + Flatten(r[1..]);
    assert r[1..] == InsertGroupEach(f[1..], group, sel, order);
    if sel * ForestIds(Kids(f[0])) != {} {
      InsertGroupPlaces(Kids(f[0]), group, sel, order);
    } else {
      InsertGroupEachPlaces(f[1..], group, sel, order);
    }
  }

  /**
    `ungroup(selectedGroupId:)`: every element carrying `gid` is replaced by
    its children (an element without children just disappears); the search
    does not descend into a replaced element's children.
   */
  function Ungroup(f: seq<Element>, gid: Id): (r: seq<Element>)
    ensures gid !in ForestIds(f) ==> r == f
    ensures ForestIds(r) <= ForestIds(f)
    decreases ForestSize(f)
  {
    if f == [] then []
    else
      SizeDecreases(f);
      var rest := Ungroup(f[1..], gid);
      if f[0].id == gid then
        assert gid in AllElementIds(f[0]);
        ForestIdsAppend(Kids(f[0]), rest);
        Kids(f[0]) + rest
      else
        assert f == [f[0]] + f[1..];
        assert ForestIds(Kids(f[0])) <= AllElementIds(f[0]);
        [MapChildren(f[0], Ungroup(Kids(f[0]), gid))] + rest
  }

  /** Ungrouping works sibling by sibling. */
  lemma {:induction false} UngroupAppend(a: seq<Element>, b: seq<Element>, gid: Id)
    ensures Ungroup(a + b, gid) == Ungroup(a, gid) + Ungroup(b, gid)
    decreases |a|
  {
    if a == [] {
      assert a + b == b;
    } else {
      assert (a + b)[0] == a[0];
      assert (a + b)[1..] == a[1..] + b;
      UngroupAppend(a[1..], b, gid);
    }
  }

  /** `s` with every occurrence of `x` dropped. */
  function Without(s: seq<Id>, x: Id): (r: seq<Id>)
    ensures forall y :: y in r <==> y in s && y != x
  {
    if s == [] then [] else (if s[0] == x then [] else [s[0]]) + Without(s[1..], x)
  }

  lemma {:induction false} WithoutAppend(a: seq<Id>, b: seq<Id>, x: Id)
    ensures Without(a + b, x) == Without(a, x) + Without(b, x)
    decreases |a|
  {
    if a == [] {
      assert a + b == b;
    } else {
      assert (a + b)[0] == a[0];
      assert (a + b)[1..] == a[1..] + b;
      WithoutAppend(a[1..], b, x);
    }
  }

  lemma {:induction false} WithoutAbsent(s: seq<Id>, x: Id)
    requires x !in s
    ensures Without(s, x) == s
  {
    if s != [] {
      WithoutAbsent(s[1..], x);
      assert s == [s[0]] + s[1..];
    }
  }

  /**
    Under uniqueness ungrouping keeps the pre-order id listing with only the
    group's own id dropped; every other id keeps its relative order. This
    speaks of ids only: the re-parenting of the children is
    `UngroupLiftsChildren`.
   */
  lemma {:induction false} UngroupKeepsOrder(f: seq<Element>, gid: Id)
    requires Unique(f)
    ensures Order(Ungroup(f, gid)) == Without(Order(f), gid)
    decreases ForestSize(f)
  {
    if f != [] {
      SizeDecreases(f);
      UniqueCons(f);
      UngroupKeepsOrder(f[1..], gid);
      if f[0].id == gid {
        UngroupOrderAtGroup(f, gid);
      } else {
        UngroupKeepsOrder(Kids(f[0]), gid);
        UngroupOrderPastElement(f, gid);
      }
    }
  }

  /** One step of `UngroupKeepsOrder`: the first element is the group being dissolved. */
  lemma UngroupOrderAtGroup(f: seq<Element>, gid: Id)
    requires f != [] && f[0].id == gid
    requires gid !in ForestIds(Kids(f[0]))
    requires Order(Ungroup(f[1..], gid)) == Without(Order(f[1..]), gid)
    ensures Order(Ungroup(f, gid)) == Without(Order(f), gid)
  {
    var kids, rest := Kids(f[0]), Ungroup(f[1..], gid);
    assert Ungroup(f, gid) == kids + rest;
    assert Order(Ungroup(f, gid)) == Order(kids) + Order(rest) by {
      OrderAppend(kids, rest);
    }
    assert Without(Order(kids), gid) == Order(kids) by {
      OrderIds(kids);
      WithoutAbsent(Order(kids), gid);
    }
    assert Without(ElementOrder(f[0]), gid) == Order(kids) by {
      WithoutAppend([gid], Order(kids), gid);
      assert Without([gid], gid) == [];
    }
    assert Without(Order(f), gid) == Order(kids) + Order(rest) by {
      OrderCons(f);
      WithoutAppend(ElementOrder(f[0]), Order(f[1..]), gid);
    }
  }

  /** One step of `UngroupKeepsOrder`: the first element is kept and its children are searched. */
  lemma UngroupOrderPastElement(f: seq<Element>, gid: Id)
    requires f != [] && f[0].id != gid
    requires Order(Ungroup(Kids(f[0]), gid)) == Without(Order(Kids(f[0])), gid)
    requires Order(Ungroup(f[1..], gid)) == Without(Order(f[1..]), gid)
    ensures Order(Ungroup(f, gid)) == Without(Order(f), gid)
  {
    var m := MapChildren(f[0], Ungroup(Kids(f[0]), gid));
    var rest := Ungroup(f[1..], gid);
    var r := Ungroup(f, gid);
    assert r == [m] + rest;
    assert r[0] == m && r[1..] == rest;
    OrderCons(r);
    OrderCons(f);
    WithoutAppend(ElementOrder(f[0]), Order(f[1..]), gid);
    WithoutAppend([f[0].id], Order(Kids(f[0])), gid);
    assert Order(Kids(m)) == Without(Order(Kids(f[0])), gid);
  }

  /**
    Under uniqueness ungrouping an occurring id lifts the group's children
    into its place: in the nested listing the group's line is dropped and its
    children are listed, in order, under the group's own parent, while every
    other line stays as it was.
   */
  lemma {:induction false} UngroupLiftsChildren(f: seq<Element>, gid: Id, root: Option<Id>)
    returns (g: Element, parent: Option<Id>, pre: seq<Line>, post: seq<Line>)
    requires Unique(f) && gid in ForestIds(f)
    ensures g in Flatten(f) && g.id == gid
    ensures Outline(f, root) == pre + ElementOutline(g, parent) + post
    ensures Outline(Ungroup(f, gid), root) == pre + Outline(Kids(g), parent) + post
    decreases ForestSize(f)
  {
    SizeDecreases(f);
    UniqueCons(f);
    var h, kids, t := f[0], Kids(f[0]), f[1..];
    assert Flatten(f) == [h] + Flatten(kids) + Flatten(t);
    if h.id == gid {
      LiftAtHead(f, gid, root);
      g, parent, pre, post := h, root, [], Outline(t, root);
      assert pre + ElementOutline(g, parent) == ElementOutline(g, parent);
      assert pre + Outline(Kids(g), parent) == Outline(Kids(g), parent);
    } else if gid in ForestIds(kids) {
      var pre';
      g, parent, pre', post := UngroupLiftsChildren(kids, gid, Some(h.id));
      LiftInChildren(f, gid, root, g, parent, pre', post);
      pre, post := [Line(h.id, root)] + pre', post + Outline(t, root);
    } else {
      var pre';
      g, parent, pre', post := UngroupLiftsChildren(t, gid, root);
      LiftInTail(f, gid, root, g, parent, pre', post);
      pre := ElementOutline(h, root) + pre';
    }
  }

  /** One step of `UngroupLiftsChildren`: the first element is the group being dissolved. */
  lemma LiftAtHead(f: seq<Element>, gid: Id, root: Option<Id>)
    requires f != [] && f[0].id == gid && gid !in ForestIds(f[1..])
    ensures Outline(f, root) == ElementOutline(f[0], root) + Outline(f[1..], root)
    ensures Outline(Ungroup(f, gid), root) == Outline(Kids(f[0]), root) + Outline(f[1..], root)
  {
    OutlineCons(f, root);
    UngroupAtHead(f, gid);
    OutlineAppend(Kids(f[0]), f[1..], root);
  }

  /** `Ungroup` at a first element carrying the id, with no other occurrence: its children take its place. */
  lemma UngroupAtHead(f: seq<Element>, gid: Id)
    requires f != [] && f[0].id == gid && gid !in ForestIds(f[1..])
    ensures Ungroup(f, gid) == Kids(f[0]) + f[1..]
  {
    assert Ungroup(f[1..], gid) == f[1..];
  }

  /** One step of `UngroupLiftsChildren`: the group lies below the first element. */
  lemma LiftInChildren(f: seq<Element>, gid: Id, root: Option<Id>, g: Element, parent: Option<Id>,
                       pre: seq<Line>, post: seq<Line>)
    requires f != [] && f[0].id != gid && gid !in ForestIds(f[1..]) && gid in ForestIds(Kids(f[0]))
    requires Outline(Kids(f[0]), Some(f[0].id)) == pre + ElementOutline(g, parent) + post
    requires Outline(Ungroup(Kids(f[0]), gid), Some(f[0].id)) == pre + Outline(Kids(g), parent) + post
    ensures Outline(f, root) ==
            [Line(f[0].id, root)] + pre + ElementOutline(g, parent) + (post + Outline(f[1..], root))
    ensures Outline(Ungroup(f, gid), root) ==
            [Line(f[0].id, root)] + pre + Outline(Kids(g), parent) + (post + Outline(f[1..], root))
  {
    var m, t := UngroupInChildren(f, gid);
    var head := [Line(f[0].id, root)];
    assert Outline(Ungroup(f, gid), root) == head + Outline(Kids(m), Some(f[0].id)) + Outline(t, root) by {
      var r := Ungroup(f, gid);
      assert r[0] == m && r[1..] == t;
      OutlineCons(r, root);
    }
    OutlineCons(f, root);
    var tail := Outline(f[1..], root);
    Regroup(head, pre, ElementOutline(g, parent), post, tail);
    Regroup(head, pre, Outline(Kids(g), parent), post, tail);
  }

  /** `Ungroup` past a first element that is not the group: only its children change. */
  lemma UngroupInChildren(f: seq<Element>, gid: Id) returns (m: Element, t: seq<Element>)
    requires f != [] && f[0].id != gid && gid !in ForestIds(f[1..]) && gid in ForestIds(Kids(f[0]))
    ensures t == f[1..] && m.id == f[0].id && Kids(m) == Ungroup(Kids(f[0]), gid)
    ensures Ungroup(f, gid) == [m] + t
  {
    m, t := MapChildren(f[0], Ungroup(Kids(f[0]), gid)), f[1..];
    assert Ungroup(t, gid) == t;
  }

  /** One step of `UngroupLiftsChildren`: the group lies in the later elements' trees. */
  lemma LiftInTail(f: seq<Element>, gid: Id, root: Option<Id>, g: Element, parent: Option<Id>,
                   pre: seq<Line>, post: seq<Line>)
    requires f != [] && gid !in AllElementIds(f[0])
    requires Outline(f[1..], root) == pre + ElementOutline(g, parent) + post
    requires Outline(Ungroup(f[1..], gid), root) == pre + Outline(Kids(g), parent) + post
    ensures Outline(f, root) == ElementOutline(f[0], root) + pre + ElementOutline(g, parent) + post
    ensures Outline(Ungroup(f, gid), root) == ElementOutline(f[0], root) + pre + Outline(Kids(g), parent) + post
  {
    var rest := UngroupPastTree(f, gid);
    var r := Ungroup(f, gid);
    assert r[0] == f[0] && r[1..] == rest;
    OutlineCons(r, root);
    OutlineCons(f, root);
    Regroup(ElementOutline(f[0], root), pre, ElementOutline(g, parent), post, []);
    Regroup(ElementOutline(f[0], root), pre, Outline(Kids(g), parent), post, []);
  }

  /** `Ungroup` past a first tree without the group leaves that tree alone. */
  lemma UngroupPastTree(f: seq<Element>, gid: Id) returns (rest: seq<Element>)
    requires f != [] && gid !in AllElementIds(f[0])
    ensures rest == Ungroup(f[1..], gid)
    ensures Ungroup(f, gid) == [f[0]] + rest
  {
    rest := Ungroup(f[1..], gid);
    assert Ungroup(Kids(f[0]), gid) == Kids(f[0]);
  }

  /**
    Under uniqueness every child of the dissolved group gets the group's
    former parent: `findParent` answers for the child what it answered for
    the group.
   */
  lemma UngroupChildrenTakeGroupParent(f: seq<Element>, gid: Id, g: Element, c: Element)
    requires Unique(f) && g in Flatten(f) && g.id == gid && c in Kids(g)
    ensures ParentId(Ungroup(f, gid), c.id) == ParentId(f, gid)
  {
    FlattenedIdsWithin(f, g);
    var g', parent, pre, post := UngroupLiftsChildren(f, gid, None);
    assert Line(gid, parent) in Outline(f, None) by {
      assert Outline(f, None)[|pre|] == Line(gid, parent);
    }
    OutlineParent(f, None, Line(gid, parent));
    var i :| 0 <= i < |Flatten(f)| && Flatten(f)[i] == g;
    var j :| 0 <= j < |Flatten(f)| && Flatten(f)[j] == g';
    UniqueFlattenedIds(f, i, j);
    var k :| 0 <= k < |Kids(g)| && Kids(g)[k] == c;
    OutlineHasRoots(Kids(g), parent, k);
    assert Line(c.id, parent) in Outline(Ungroup(f, gid), None);
    UngroupKeepsUnique(f, gid);
    OutlineParent(Ungroup(f, gid), None, Line(c.id, parent));
  }

  lemma {:induction false} DistinctWithout(s: seq<Id>, x: Id)
    requires Distinct(s)
    ensures Distinct(Without(s, x))
    decreases |s|
  {
    if s != [] {
      DistinctAppend([s[0]], s[1..]);
      DistinctWithout(s[1..], x);
      var w := Without(s[1..], x);
      if s[0] != x {
        DistinctAppend([s[0]], w);
      } else {
        assert Without(s, x) == w;
      }
    }
  }

  /** Under uniqueness ungrouping removes exactly the group's own id and keeps the ids unique. */
  lemma UngroupKeepsUnique(f: seq<Element>, gid: Id)
    requires Unique(f)
    ensures Unique(Ungroup(f, gid))
    ensures ForestIds(Ungroup(f, gid)) == ForestIds(f) - {gid}
  {
    var r := Ungroup(f, gid);
    UngroupKeepsOrder(f, gid);
    DistinctWithout(Order(f), gid);
    OrderIds(f);
    OrderIds(r);
    forall x ensures x in ForestIds(r) <==> x in ForestIds(f) - {gid} {
      assert x in ForestIds(r) <==> x in Order(r);
      assert x in ForestIds(f) <==> x in Order(f);
    }
  }
}

=== FILE: group_placement.dfy ===
/**
  What `insertGroup` does to a forest when the group was built, as intended,
  from a groupable level: the selected elements move into the new group and
  nothing else is lost or duplicated.
 */
module GroupPlacement {
  import opened Wrappers
  import opened Forest
  import opened Queries
  import opened Mutation
  import opened GroupAnalysis
  import opened GroupOps

  /** The elements of one level whose own id is not selected, in level order. */
  function Unselected(level: seq<Element>, sel: set<Id>): (r: seq<Element>)
    ensures forall i :: 0 <= i < |r| ==> r[i] in level && r[i].id !in sel
    ensures forall i :: 0 <= i < |level| && level[i].id !in sel ==> level[i] in r
  {
    if level == [] then []
    else
      var rest := Unselected(level[1..], sel);
      assert forall i :: 1 <= i < |level| ==> level[i] == level[1..][i - 1];
      if level[0].id in sel then rest else [level[0]] + rest
  }

  /** Re-assembling a unique forest from a first element and the rest. */
  lemma UniqueConsBuild(h: Element, t: seq<Element>)
    requires h.id !in ForestIds(Kids(h)) && Unique(Kids(h))
    requires AllElementIds(h) !! ForestIds(t) && Unique(t)
    ensures Unique([h] + t)
    ensures ForestIds([h] + t) == AllElementIds(h) + ForestIds(t)
  {
    var f := [h] + t;
    assert f[0] == h && f[1..] == t;
    UniqueCons(f);
  }

  /**
    Under uniqueness a level splits into its selected and its unselected
    elements: both parts are unique, their ids are disjoint and together
    they are the level's ids.
   */
  lemma {:induction false} SplitKeepsUnique(f: seq<Element>, sel: set<Id>)
    requires Unique(f)
    ensures Unique(Selected(f, sel)) && Unique(Unselected(f, sel))
    ensures ForestIds(Selected(f, sel)) !! ForestIds(Unselected(f, sel))
    ensures ForestIds(Selected(f, sel)) + ForestIds(Unselected(f, sel)) == ForestIds(f)
    decreases |f|
  {
    if f != [] {
      UniqueCons(f);
      SplitKeepsUnique(f[1..], sel);
      var s, u := Selected(f[1..], sel), Unselected(f[1..], sel);
      if f[0].id in sel {
        assert Selected(f, sel) == [f[0]] + s;
        UniqueConsBuild(f[0], s);
      } else {
        assert Unselected(f, sel) == [f[0]] + u;
        UniqueConsBuild(f[0], u);
      }
    }
  }

  /** Unselected elements whose trees hold no selected id. */
  predicate Clear(level: seq<Element>, sel: set<Id>) {
    forall i :: 0 <= i < |level| ==> AllElementIds(level[i]) !! sel
  }

  /**
    Removing a selected id leaves the unselected elements of the level
    untouched when their trees hold no selected id.
   */
  lemma {:induction false} RemoveKeepsUnselected(f: seq<Element>, y: Id, sel: set<Id>)
    requires y in sel
    requires Clear(Unselected(f, sel), sel)
    ensures Unselected(Remove(f, y), sel) == Unselected(f, sel)
    decreases |f|
  {
    if f != [] && f[0].id != y {
      var r, rest := Remove(f, y), Remove(f[1..], y);
      var m := RemovePastHead(f, y);
      ClearCons(f, sel);
      RemoveKeepsUnselected(f[1..], y, sel);
      assert r != [] && r[0] == m && r[1..] == rest;
      UnselectedCons(f, sel);
      UnselectedCons(r, sel);
    }
  }

  /** The unselected part of a non-empty level, one element at a time. */
  lemma UnselectedCons(s: seq<Element>, sel: set<Id>)
    requires s != []
    ensures Unselected(s, sel) == (if s[0].id in sel then [] else [s[0]]) + Unselected(s[1..], sel)
  {
  }

  /** A clear unselected part stays clear past its first element, and that element is clear when unselected. */
  lemma ClearCons(f: seq<Element>, sel: set<Id>)
    requires f != [] && Clear(Unselected(f, sel), sel)
    ensures Clear(Unselected(f[1..], sel), sel)
    ensures f[0].id !in sel ==> AllElementIds(f[0]) !! sel
  {
    var head: seq<Element> := if f[0].id in sel then [] else [f[0]];
    UnselectedCons(f, sel);
    ClearSplit(head, Unselected(f[1..], sel), sel);
    if f[0].id !in sel {
      assert head[0] == f[0];
    }
  }

  /** Both halves of a clear level are clear. */
  lemma ClearSplit(a: seq<Element>, b: seq<Element>, sel: set<Id>)
    requires Clear(a + b, sel)
    ensures Clear(a, sel) && Clear(b, sel)
  {
    forall i | 0 <= i < |a|
      ensures AllElementIds(a[i]) !! sel
    {
      assert a[i] == (a + b)[i];
    }
    forall i | 0 <= i < |b|
      ensures AllElementIds(b[i]) !! sel
    {
      assert b[i] == (a + b)[|a| + i];
    }
  }

  /**
    `Remove` past a first element that does not carry the id: only its
    children are searched, and it is untouched when its tree lacks the id.
   */
  lemma RemovePastHead(f: seq<Element>, y: Id) returns (m: Element)
    requires f != [] && f[0].id != y
    ensures m.id == f[0].id && Remove(f, y) == [m] + Remove(f[1..], y)
    ensures y !in AllElementIds(f[0]) ==> m == f[0]
  {
    m := MapChildren(f[0], Remove(Kids(f[0]), y));
    assert ForestIds(Kids(f[0])) <= AllElementIds(f[0]);
  }

  lemma {:induction false} RemoveAllKeepsUnselected(f: seq<Element>, xs: seq<Id>, sel: set<Id>)
    requires forall x :: x in xs ==> x in sel
    requires Clear(Unselected(f, sel), sel)
    ensures Unselected(RemoveAll(f, xs), sel) == Unselected(f, sel)
    decreases |xs|
  {
    if xs != [] {
      RemoveKeepsUnselected(f, xs[0], sel);
      RemoveAllKeepsUnselected(Remove(f, xs[0]), xs[1..], sel);
    }
  }

  /** A level with no selected element is its own unselected part. */
  lemma {:induction false} UnselectedAll(f: seq<Element>, sel: set<Id>)
    requires forall j :: 0 <= j < |f| ==> f[j].id !in sel
    ensures Unselected(f, sel) == f
    decreases |f|
  {
    if f != [] {
      UnselectedAll(f[1..], sel);
      assert f == [f[0]] + f[1..];
    }
  }

  /**
    On a groupable level, removing every selected id drops exactly the
    selected elements: what remains is the level's unselected part.
   */
  lemma RemoveAllOnGroupableLevel(f: seq<Element>, sel: set<Id>, order: seq<Id>)
    requires Unique(f) && Enumerates(order, sel) && Groupable(f, sel)
    ensures RemoveAll(f, order) == Unselected(f, sel)
  {
    var u := Unselected(f, sel);
    SplitKeepsUnique(f, sel);
    forall i | 0 <= i < |u| ensures AllElementIds(u[i]) !! sel {
      RootIdsWithin(u, i);
    }
    RemoveAllKeepsUnselected(f, order, sel);
    var rest := RemoveAll(f, order);
    RemoveAllKeepsUnique(f, order);
    forall j | 0 <= j < |rest| ensures rest[j].id !in sel {
      RootIdsWithin(rest, j);
    }
    UnselectedAll(rest, sel);
  }

  /**
    On a groupable level the new group takes the place of the first selected
    element, holding the selected elements; under uniqueness and with a fresh
    group id the forest stays unique and gains exactly the group's id.
   */
  lemma InsertGroupAtThisLevel(f: seq<Element>, sel: set<Id>, order: seq<Id>, newId: Id)
    requires Unique(f) && Enumerates(order, sel) && Groupable(f, sel)
    requires newId !in ForestIds(f)
    ensures Unique(InsertGroup(f, GroupOf(newId, Selected(f, sel)), sel, order))
    ensures ForestIds(InsertGroup(f, GroupOf(newId, Selected(f, sel)), sel, order)) == ForestIds(f) + {newId}
  {
    var s, u := Selected(f, sel), Unselected(f, sel);
    var g := GroupOf(newId, s);
    SplitKeepsUnique(f, sel);
    var k := GroupedLevel(f, sel, order, g);
    var r := InsertGroup(f, g, sel, order);
    var pre, post := SpliceOrder(u, k, g);
    assert Distinct(ElementOrder(g)) by {
      OrderIds(s);
      DistinctAppend([newId], Order(s));
    }
    SpliceKeepsUnique(u, r, g, pre, post);
  }

  /**
    Ungrouping undoes grouping at a groupable level: the selected elements
    come back, in their original order, at the group's position (the lowest
    selected index), with the unselected elements around them as before.
   */
  lemma UngroupRestoresSelection(f: seq<Element>, sel: set<Id>, order: seq<Id>, newId: Id)
    returns (k: nat)
    requires Unique(f) && Enumerates(order, sel) && Groupable(f, sel)
    requires newId !in ForestIds(f)
    ensures FindLowestIndex(f, sel) == Some(k) && k <= |Unselected(f, sel)|
    ensures Ungroup(InsertGroup(f, GroupOf(newId, Selected(f, sel)), sel, order), newId)
            == Unselected(f, sel)[..k] + Selected(f, sel) + Unselected(f, sel)[k..]
  {
    var u := Unselected(f, sel);
    var g := GroupOf(newId, Selected(f, sel));
    SplitKeepsUnique(f, sel);
    k := GroupedLevel(f, sel, order, g);
    assert newId !in ForestIds(u);
    UngroupSplice(u, k, g);
  }

  /**
    The restored selection is gathered at the group's position: grouping 1
    and 3 of the leaves `[1, 2, 3]` and then ungrouping gives `[1, 3, 2]`.
   */
  lemma UngroupGathersSelectionExample(e1: Element, e2: Element, e3: Element, sel: set<Id>, order: seq<Id>)
    requires e1 == Element(1, Absent, None) && e2 == Element(2, Absent, None) && e3 == Element(3, Absent, None)
    requires sel == {1, 3} && order == [1, 3]
    ensures Ungroup(InsertGroup([e1, e2, e3], GroupOf(9, [e1, e3]), sel, order), 9) == [e1, e3, e2]
  {
    GatherExampleSplice(e1, e2, e3, sel, order);
    GatherExampleUngroup(e1, e2, e3);
  }

  /** Ungrouping the spliced group of `UngroupGathersSelectionExample`. */
  lemma GatherExampleUngroup(e1: Element, e2: Element, e3: Element)
    requires e2 == Element(2, Absent, None)
    ensures Ungroup(SpliceIn([e2], 0, GroupOf(9, [e1, e3])), 9) == [e1, e3, e2]
  {
    assert 9 !in ForestIds([e2]) by {
      assert [e2][1..] == [];
    }
    UngroupSplice([e2], 0, GroupOf(9, [e1, e3]));
    assert [e2][..0] + [e1, e3] + [e2][0..] == [e1, e3, e2];
  }

  /** Grouping in `UngroupGathersSelectionExample` puts the group in front of the unselected 2. */
  lemma GatherExampleSplice(e1: Element, e2: Element, e3: Element, sel: set<Id>, order: seq<Id>)
    requires e1 == Element(1, Absent, None) && e2 == Element(2, Absent, None) && e3 == Element(3, Absent, None)
    requires sel == {1, 3} && order == [1, 3]
    ensures InsertGroup([e1, e2, e3], GroupOf(9, [e1, e3]), sel, order) == SpliceIn([e2], 0, GroupOf(9, [e1, e3]))
  {
    GatherExampleLevel(e1, e2, e3, sel);
    var k := GroupedLevel([e1, e2, e3], sel, order, GroupOf(9, [e1, e3]));
  }

  /** The level of `UngroupGathersSelectionExample`: unique, groupable, split into [1, 3] and [2]. */
  lemma GatherExampleLevel(e1: Element, e2: Element, e3: Element, sel: set<Id>)
    requires e1 == Element(1, Absent, None) && e2 == Element(2, Absent, None) && e3 == Element(3, Absent, None)
    requires sel == {1, 3}
    ensures var f := [e1, e2, e3];
            Unique(f) && ForestIds(f) == {1, 2, 3} && Groupable(f, sel)
            && Selected(f, sel) == [e1, e3] && Unselected(f, sel) == [e2]
            && FindLowestIndex(f, sel) == Some(0)
  {
    var f := [e1, e2, e3];
    assert f[1..] == [e2, e3] && [e2, e3][1..] == [e3] && [e3][1..] == [];
    assert ForestIds(f) == {1, 2, 3} by {
      assert ForestIds([e3]) == {3};
      assert ForestIds([e2, e3]) == {2, 3};
    }
    assert Unique(f) by {
      assert Order([e3]) == [3];
      assert Order([e2, e3]) == [2, 3];
      assert Order(f) == [1, 2, 3];
    }
    assert Selected(f, sel) == [e1, e3] by {
      assert [e1, e3][1..] == [e3];
    }
    assert ForestIds([e1, e3]) == sel by {
      assert [e1, e3][1..] == [e3];
      assert ForestIds([e3]) == {3};
    }
    assert Unselected(f, sel) == [e2] by {
      assert Unselected([e3], sel) == [];
    }
  }

  /** Ungrouping an element spliced into a level that does not hold its id puts its children there. */
  lemma UngroupSplice(u: seq<Element>, k: nat, g: Element)
    requires k <= |u| && g.id !in ForestIds(u)
    ensures Ungroup(SpliceIn(u, k, g), g.id) == u[..k] + Kids(g) + u[k..]
  {
    SliceIdsWithin(u, k);
    SpliceInParts(u, k, g);
    UngroupBetween(u[..k], g, u[k..]);
  }

  /** Both parts of a level cut at `k` hold only ids of the level. */
  lemma SliceIdsWithin(u: seq<Element>, k: nat)
    requires k <= |u|
    ensures ForestIds(u[..k]) <= ForestIds(u) && ForestIds(u[k..]) <= ForestIds(u)
  {
    assert u == u[..k] + u[k..];
    ForestIdsAppend(u[..k], u[k..]);
  }

  /** `SpliceIn` as a concatenation around the inserted element. */
  lemma SpliceInParts(u: seq<Element>, k: nat, g: Element)
    requires k <= |u|
    ensures SpliceIn(u, k, g) == u[..k] + ([g] + u[k..])
  {
  }

  /** `UngroupSplice` with the level already cut at the group. */
  lemma UngroupBetween(before: seq<Element>, g: Element, after: seq<Element>)
    requires g.id !in ForestIds(before) && g.id !in ForestIds(after)
    ensures Ungroup(before + ([g] + after), g.id) == before + Kids(g) + after
  {
    var rest := [g] + after;
    assert rest[0] == g && rest[1..] == after;
    UngroupAtHead(rest, g.id);
    UngroupAppend(before, rest, g.id);
  }

  /**
    On a groupable level `InsertGroup` is a splice: the group goes into the
    unselected elements at the position of the first selected one.
   */
  lemma GroupedLevel(f: seq<Element>, sel: set<Id>, order: seq<Id>, g: Element) returns (k: nat)
    requires Unique(f) && Enumerates(order, sel) && Groupable(f, sel)
    ensures FindLowestIndex(f, sel) == Some(k) && k <= |Unselected(f, sel)|
    ensures InsertGroup(f, g, sel, order) == SpliceIn(Unselected(f, sel), k, g)
  {
    assert Selected(f, sel) != [];
    k := FindLowestIndex(f, sel).value;
    var r, rest := InsertGroup(f, g, sel, order), RemoveAll(f, order);
    assert k <= |rest| by {
      assert r[..k] + r[k + 1..] == rest;
    }
    assert r == SpliceIn(rest, k, g);
    RemoveAllOnGroupableLevel(f, sel, order);
  }

  /**
    Grouping from a groupable level anywhere in a unique forest and then
    ungrouping the new group loses and duplicates nothing: the result is
    unique and has exactly the forest's ids.
   */
  lemma GroupThenUngroupKeepsIds(f: seq<Element>, sel: set<Id>, order: seq<Id>, newId: Id,
                                 level: seq<Element>, owner: Option<Element>)
    requires Unique(f) && Enumerates(order, sel) && Groupable(level, sel)
    requires newId !in ForestIds(f)
    requires owner.None? ==> level == f
    requires owner.Some? ==> owner.value in Flatten(f) && owner.value.children == Present(level)
    ensures Unique(Ungroup(InsertGroup(f, GroupOf(newId, Selected(level, sel)), sel, order), newId))
    ensures ForestIds(Ungroup(InsertGroup(f, GroupOf(newId, Selected(level, sel)), sel, order), newId))
            == ForestIds(f)
  {
    var r := InsertGroup(f, GroupOf(newId, Selected(level, sel)), sel, order);
    InsertGroupAtLevel(f, sel, order, newId, level, owner);
    UngroupKeepsUnique(r, newId);
  }

  /** Putting `g` at position `k` of a level splices `g`'s tree into the level's listing. */
  lemma SpliceOrder(u: seq<Element>, k: nat, g: Element) returns (pre: seq<Id>, post: seq<Id>)
    requires k <= |u|
    ensures Order(u) == pre + post
    ensures Order(SpliceIn(u, k, g)) == pre + ElementOrder(g) + post
  {
    assert u == u[..k] + u[k..];
    OrderAppend(u[..k], u[k..]);
    OrderAppend(u[..k] + [g], u[k..]);
    OrderAppend(u[..k], [g]);
    OrderCons([g]);
    assert [g][1..] == [];
    pre, post := Order(u[..k]), Order(u[k..]);
  }

  /**
    Grouping from a groupable level anywhere in a unique forest, with a fresh
    group id: the result is unique and has exactly the forest's ids plus the
    group's.
   */
  lemma {:induction false} InsertGroupAtLevel(f: seq<Element>, sel: set<Id>, order: seq<Id>, newId: Id,
                                              level: seq<Element>, owner: Option<Element>)
    requires Unique(f) && Enumerates(order, sel) && Groupable(level, sel)
    requires newId !in ForestIds(f)
    requires owner.None? ==> level == f
    requires owner.Some? ==> owner.value in Flatten(f) && owner.value.children == Present(level)
    ensures Unique(InsertGroup(f, GroupOf(newId, Selected(level, sel)), sel, order))
    ensures ForestIds(InsertGroup(f, GroupOf(newId, Selected(level, sel)), sel, order)) == ForestIds(f) + {newId}
    decreases ForestSize(f), 3
  {
    if FindLowestIndex(f, sel).Some? {
      if owner.Some? {
        var k := FindLowestIndex(f, sel).value;
        SelectedIdsWithin(level, sel);
        RootNotBelow(f, owner.value, k);
        assert false;
      }
      InsertGroupAtThisLevel(f, sel, order, newId);
    } else {
      if owner.None? {
        assert false;
      }
      InsertGroupEachAtLevel(f, sel, order, newId, level, owner.value);
    }
  }

  lemma {:induction false} InsertGroupEachAtLevel(f: seq<Element>, sel: set<Id>, order: seq<Id>, newId: Id,
                                                  level: seq<Element>, owner: Element)
    requires Unique(f) && Enumerates(order, sel) && Groupable(level, sel)
    requires newId !in ForestIds(f)
    requires owner in Flatten(f) && owner.children == Present(level)
    requires forall j :: 0 <= j < |f| ==> f[j].id !in sel
    ensures Unique(InsertGroupEach(f, GroupOf(newId, Selected(level, sel)), sel, order))
    ensures ForestIds(InsertGroupEach(f, GroupOf(newId, Selected(level, sel)), sel, order)) == ForestIds(f) + {newId}
    decreases ForestSize(f), 2
  {
    SizeDecreases(f);
    assert Flatten(f) == [f[0]] + Flatten(Kids(f[0])) + Flatten(f[1..]);
    assert sel <= AllElementIds(owner) by {
      SelectedIdsWithin(level, sel);
    }
    if owner == f[0] || owner in Flatten(Kids(f[0])) {
      GroupBelowFirst(f, sel, order, newId, level, owner);
    } else {
      GroupBelowRest(f, sel, order, newId, level, owner);
    }
  }

  /** The groupable level lies in the first element's tree: only that element changes. */
  lemma GroupBelowFirst(f: seq<Element>, sel: set<Id>, order: seq<Id>, newId: Id,
                        level: seq<Element>, owner: Element)
    requires Unique(f) && Enumerates(order, sel) && Groupable(level, sel)
    requires newId !in ForestIds(f)
    requires f != [] && (owner == f[0] || owner in Flatten(Kids(f[0])))
    requires owner.children == Present(level) && sel <= AllElementIds(owner)
    requires ForestSize(Kids(f[0])) < ForestSize(f)
    ensures Unique(InsertGroupEach(f, GroupOf(newId, Selected(level, sel)), sel, order))
    ensures ForestIds(InsertGroupEach(f, GroupOf(newId, Selected(level, sel)), sel, order)) == ForestIds(f) + {newId}
    decreases ForestSize(f), 1
  {
    var g := GroupOf(newId, Selected(level, sel));
    var h, t := f[0], f[1..];
    var kids := InsertGroup(Kids(h), g, sel, order);
    UniqueCons(f);
    FirstKidsGrouped(f, sel, order, newId, level, owner);
    InsertGroupEachUntouched(t, g, sel, order);
    EachCons(f, g, sel, order);
    RebuildFirst(h, kids, t, newId);
  }

  /** One step of the per-element pass. */
  lemma EachCons(f: seq<Element>, g: Element, sel: set<Id>, order: seq<Id>)
    requires f != [] && Enumerates(order, sel)
    ensures InsertGroupEach(f, g, sel, order)
            == [MapChildren(f[0], InsertGroup(Kids(f[0]), g, sel, order))] + InsertGroupEach(f[1..], g, sel, order)
  {
  }

  /** The first element's children, grouped at the level below it. */
  lemma FirstKidsGrouped(f: seq<Element>, sel: set<Id>, order: seq<Id>, newId: Id,
                         level: seq<Element>, owner: Element)
    requires Unique(f) && Enumerates(order, sel) && Groupable(level, sel)
    requires newId !in ForestIds(f)
    requires f != [] && (owner == f[0] || owner in Flatten(Kids(f[0])))
    requires owner.children == Present(level) && sel <= AllElementIds(owner)
    requires ForestSize(Kids(f[0])) < ForestSize(f)
    ensures sel <= AllElementIds(f[0]) && IsGroup(f[0])
    ensures var kids := InsertGroup(Kids(f[0]), GroupOf(newId, Selected(level, sel)), sel, order);
            Unique(kids) && ForestIds(kids) == ForestIds(Kids(f[0])) + {newId}
    decreases ForestSize(f), 0
  {
    var h := f[0];
    UniqueCons(f);
    if owner == h {
      InsertGroupAtLevel(Kids(h), sel, order, newId, level, None);
    } else {
      FlattenedIdsWithin(Kids(h), owner);
      InsertGroupAtLevel(Kids(h), sel, order, newId, level, Some(owner));
    }
  }

  /** Putting back a first element whose children gained exactly one fresh id. */
  lemma RebuildFirst(h: Element, kids: seq<Element>, t: seq<Element>, newId: Id)
    requires h.id !in ForestIds(Kids(h)) && Unique(Kids(h))
    requires AllElementIds(h) !! ForestIds(t) && Unique(t)
    requires IsGroup(h) && Unique(kids) && ForestIds(kids) == ForestIds(Kids(h)) + {newId}
    requires newId !in AllElementIds(h) + ForestIds(t)
    ensures Unique([MapChildren(h, kids)] + t)
    ensures ForestIds([MapChildren(h, kids)] + t) == AllElementIds(h) + ForestIds(t) + {newId}
  {
    var h' := MapChildren(h, kids);
    assert AllElementIds(h') == AllElementIds(h) + {newId};
    UniqueConsBuild(h', t);
  }

  /** The groupable level lies in the later elements' trees: the first element is untouched. */
  lemma GroupBelowRest(f: seq<Element>, sel: set<Id>, order: seq<Id>, newId: Id,
                       level: seq<Element>, owner: Element)
    requires Unique(f) && Enumerates(order, sel) && Groupable(level, sel)
    requires newId !in ForestIds(f)
    requires f != [] && owner in Flatten(f[1..])
    requires owner.children == Present(level) && sel <= AllElementIds(owner)
    requires forall j :: 0 <= j < |f| ==> f[j].id !in sel
    requires ForestSize(f[1..]) < ForestSize(f)
    ensures Unique(InsertGroupEach(f, GroupOf(newId, Selected(level, sel)), sel, order))
    ensures ForestIds(InsertGroupEach(f, GroupOf(newId, Selected(level, sel)), sel, order)) == ForestIds(f) + {newId}
    decreases ForestSize(f), 1
  {
    var g := GroupOf(newId, Selected(level, sel));
    var t := f[1..];
    EachPastClearHead(f, g, sel, order, owner);
    assert Unique(t) by {
      UniqueCons(f);
    }
    assert forall j :: 0 <= j < |t| ==> t[j].id !in sel by {
      assert forall j :: 0 <= j < |t| ==> t[j] == f[j + 1];
    }
    InsertGroupEachAtLevel(t, sel, order, newId, level, owner);
    ConsKeepsUnique(f, InsertGroupEach(t, g, sel, order), newId);
  }

  /** A first element whose tree holds no selected id passes through `InsertGroupEach` unchanged. */
  lemma EachPastClearHead(f: seq<Element>, g: Element, sel: set<Id>, order: seq<Id>, owner: Element)
    requires Unique(f) && Enumerates(order, sel)
    requires f != [] && owner in Flatten(f[1..]) && sel <= AllElementIds(owner)
    ensures InsertGroupEach(f, g, sel, order) == [f[0]] + InsertGroupEach(f[1..], g, sel, order)
  {
    var h := f[0];
    assert sel !! ForestIds(Kids(h)) by {
      UniqueCons(f);
      FlattenedIdsWithin(f[1..], owner);
      assert ForestIds(Kids(h)) <= AllElementIds(h);
    }
    InsertGroupUntouched(Kids(h), g, sel, order);
  }

  /**
    Replacing the rest of a unique level by a unique one that adds only a
    fresh id keeps the level unique.
   */
  lemma ConsKeepsUnique(f: seq<Element>, rest: seq<Element>, newId: Id)
    requires f != [] && Unique(f) && newId !in ForestIds(f)
    requires Unique(rest) && ForestIds(rest) == ForestIds(f[1..]) + {newId}
    ensures Unique([f[0]] + rest)
    ensures ForestIds([f[0]] + rest) == ForestIds(f) + {newId}
  {
    var h := f[0];
    UniqueCons(f);
    assert f == [h] + f[1..];
    UniqueConsBuild(h, f[1..]);
    UniqueConsBuild(h, rest);
  }
}

=== FILE: legacy.dfy ===
/**
  The older model variant (the target the package manifest builds): its
  flattening and removal are the same algorithms as the current model's
  (`Forest.Flatten`, `Mutation.Remove`); only insertion differs.
 */
module LegacyModel {
  import opened Wrappers
  import opened Forest
  import opened Mutation

  /**
    `insert(_:after:)` of the older model: a level that holds the anchor gets
    `data` at the anchor's own index; otherwise the insertion is attempted in
    every element's children and the scan goes on (no early exit), and an
    anchor that occurs nowhere leaves the forest as it was (no root fallback).
   */
  function LegacyInsert(f: seq<Element>, data: Element, anchor: Id): (r: seq<Element>)
    ensures anchor !in ForestIds(f) ==> r == f
    decreases ForestSize(f)
  {
    if f == [] then []
    else if f[0].id == anchor then
      assert anchor in AllElementIds(f[0]);
      [data] + f
    else
      SizeDecreases(f);
      assert f == [f[0]] + f[1..];
      assert ForestIds(Kids(f[0])) <= AllElementIds(f[0]);
      [MapChildren(f[0], LegacyInsert(Kids(f[0]), data, anchor))] + LegacyInsert(f[1..], data, anchor)
  }

  /**
    Under uniqueness an anchor that occurs is found once, so the older
    insertion agrees with the current one: `data` lands immediately before
    the anchor, exactly once.
   */
  lemma {:induction false} LegacyInsertAgrees(f: seq<Element>, data: Element, anchor: Id)
    requires Unique(f)
    requires anchor in ForestIds(f)
    ensures LegacyInsert(f, data, anchor) == Insert(f, data, Some(anchor))
    ensures PlacedBefore(f, LegacyInsert(f, data, anchor), data, anchor)
    decreases ForestSize(f)
  {
    SizeDecreases(f);
    UniqueCons(f);
    if f[0].id != anchor {
      if anchor in ForestIds(Kids(f[0])) {
        LegacyInsertAgrees(Kids(f[0]), data, anchor);
      } else {
        LegacyInsertAgrees(f[1..], data, anchor);
      }
    }
  }
}

=== FILE: mutation.dfy ===
/**
  Identity-addressed mutations of the current model: insertion relative to an
  anchor id (with the root-level fallback) and removal of an element together
  with its subtree.
 */
module Mutation {
  import opened Wrappers
  import opened Forest
  import opened Queries

  /**
    `Order(f)` splits as `pre + post` with the anchor first in `post` and not
    in `pre`, and `r` lists the tree of `data` in between.
   */
  ghost predicate SplicedAt(f: seq<Element>, r: seq<Element>, data: Element, anchor: Id,
                            pre: seq<Id>, post: seq<Id>) {
    && Order(f) == pre + post
    && post != [] && post[0] == anchor && anchor !in pre
    && Order(r) == pre + ElementOrder(data) + post
  }

  /**
    The ids of `r` are those of `f` with the tree of `data` spliced in
    immediately before the first pre-order occurrence of `anchor`.
   */
  ghost predicate PlacedBefore(f: seq<Element>, r: seq<Element>, data: Element, anchor: Id) {
    exists pre, post :: SplicedAt(f, r, data, anchor, pre, post)
  }

  /**
    The nested listing of `f` (roots under `root`) splits as `pre + post`,
    with the anchor's line first in `post` and the anchor not in `pre`; `r`
    lists the tree of `data` in between, `data` under the anchor's parent.
   */
  ghost predicate NestedAt(f: seq<Element>, r: seq<Element>, data: Element, anchor: Id, root: Option<Id>,
                           parent: Option<Id>, pre: seq<Line>, post: seq<Line>) {
    && Outline(f, root) == pre + post
    && post != [] && post[0] == Line(anchor, parent)
    && (forall l :: l in pre ==> l.id != anchor)
    && Outline(r, root) == pre + ElementOutline(data, parent) + post
  }

  /**
    `r` is `f` with the tree of `data` placed immediately before the first
    pre-order occurrence of `anchor`, as a sibling of it: `data` gets the
    anchor's parent.
   */
  ghost predicate NestedBefore(f: seq<Element>, r: seq<Element>, data: Element, anchor: Id, root: Option<Id>) {
    exists parent, pre, post :: NestedAt(f, r, data, anchor, root, parent, pre, post)
  }

  /**
    The nested search of `insert(_:after:isRootLevel:)`: the first element
    with the anchor id, in pre-order, gets `data` inserted at its own index
    in its own sibling sequence. The flag tells whether the anchor was found;
    when it was not, nothing changed.
   */
  function InsertAtAnchor(f: seq<Element>, data: Element, anchor: Id): (r: (seq<Element>, bool))
    ensures r.1 <==> anchor in ForestIds(f)
    ensures !r.1 ==> r.0 == f
    decreases ForestSize(f)
  {
    if f == [] then (f, false)
    else if f[0].id == anchor then ([data] + f, true)
    else
      SizeDecreases(f);
      var (items, found) := InsertAtAnchor(Kids(f[0]), data, anchor);
      if found then ([MapChildren(f[0], items)] + f[1..], true)
      else
        var (rest, found') := InsertAtAnchor(f[1..], data, anchor);
        ([f[0]] + rest, found')
  }

  lemma {:induction false} InsertAtAnchorPlacesBefore(f: seq<Element>, data: Element, anchor: Id)
    requires anchor in ForestIds(f)
    ensures PlacedBefore(f, InsertAtAnchor(f, data, anchor).0, data, anchor)
    decreases ForestSize(f)
  {
    SizeDecreases(f);
    var r := InsertAtAnchor(f, data, anchor).0;
    if f[0].id == anchor {
      PlacedBeforeHead(f, data);
    } else if anchor in ForestIds(Kids(f[0])) {
      var items := InsertAtAnchor(Kids(f[0]), data, anchor).0;
      InsertAtAnchorPlacesBefore(Kids(f[0]), data, anchor);
      PlacedBeforeInChildren(f, items, data, anchor);
    } else {
      var rest := InsertAtAnchor(f[1..], data, anchor).0;
      InsertAtAnchorPlacesBefore(f[1..], data, anchor);
      PlacedBeforeInTail(f, rest, data, anchor);
    }
  }

  lemma PlacedBeforeHead(f: seq<Element>, data: Element)
    requires f != []
    ensures PlacedBefore(f, [data] + f, data, f[0].id)
  {
    var r, post := [data] + f, Order(f);
    assert post != [] && post[0] == f[0].id by {
      OrderCons(f);
    }
    assert Order(r) == [] + ElementOrder(data) + post by {
      assert r[0] == data && r[1..] == f;
      OrderCons(r);
    }
    assert Order(f) == [] + post;
    assert SplicedAt(f, r, data, f[0].id, [], post);
  }

  lemma PlacedBeforeInChildren(f: seq<Element>, items: seq<Element>, data: Element, anchor: Id)
    requires f != [] && f[0].id != anchor && IsGroup(f[0])
    requires PlacedBefore(Kids(f[0]), items, data, anchor)
    ensures PlacedBefore(f, [MapChildren(f[0], items)] + f[1..], data, anchor)
  {
    var pre, post :| SplicedAt(Kids(f[0]), items, data, anchor, pre, post);
    SplicedAtInChildren(f, items, data, anchor, pre, post);
  }

  lemma SplicedAtInChildren(f: seq<Element>, items: seq<Element>, data: Element, anchor: Id,
                            pre: seq<Id>, post: seq<Id>)
    requires f != [] && f[0].id != anchor && IsGroup(f[0])
    requires SplicedAt(Kids(f[0]), items, data, anchor, pre, post)
    ensures SplicedAt(f, [MapChildren(f[0], items)] + f[1..], data, anchor, [f[0].id] + pre, post + Order(f[1..]))
  {
    var r := [MapChildren(f[0], items)] + f[1..];
    var head, tail := [f[0].id], Order(f[1..]);
    assert Order(f) == (head + pre) + (post + tail) by {
      OrderCons(f);
      Regroup(head, pre, [], post, tail);
    }
    assert Order(r) == (head + pre) + ElementOrder(data) + (post + tail) by {
      assert r[0] == MapChildren(f[0], items) && r[1..] == f[1..];
      OrderCons(r);
      Regroup(head, pre, ElementOrder(data), post, tail);
    }
  }

  lemma PlacedBeforeInTail(f: seq<Element>, rest: seq<Element>, data: Element, anchor: Id)
    requires f != [] && anchor !in AllElementIds(f[0])
    requires PlacedBefore(f[1..], rest, data, anchor)
    ensures PlacedBefore(f, [f[0]] + rest, data, anchor)
  {
    var pre, post :| SplicedAt(f[1..], rest, data, anchor, pre, post);
    SplicedAtInTail(f, rest, data, anchor, pre, post);
  }

  lemma SplicedAtInTail(f: seq<Element>, rest: seq<Element>, data: Element, anchor: Id,
                        pre: seq<Id>, post: seq<Id>)
    requires f != [] && anchor !in AllElementIds(f[0])
    requires SplicedAt(f[1..], rest, data, anchor, pre, post)
    ensures SplicedAt(f, [f[0]] + rest, data, anchor, ElementOrder(f[0]) + pre, post)
  {
    var r := [f[0]] + rest;
    var head := ElementOrder(f[0]);
    assert Order(f) == (head + pre) + post by {
      OrderCons(f);
      Regroup(head, pre, [], post, []);
    }
    assert Order(r) == (head + pre) + ElementOrder(data) + post by {
      assert r[0] == f[0] && r[1..] == rest;
      OrderCons(r);
      Regroup(head, pre, ElementOrder(data), post, []);
    }
    assert anchor !in head by {
      ElementOrderIds(f[0]);
    }
  }

  /** The anchor search places `data` as the anchor's sibling, immediately before it. */
  lemma {:induction false} InsertAtAnchorNestsBefore(f: seq<Element>, data: Element, anchor: Id, root: Option<Id>)
    requires anchor in ForestIds(f)
    ensures NestedBefore(f, InsertAtAnchor(f, data, anchor).0, data, anchor, root)
    decreases ForestSize(f)
  {
    SizeDecreases(f);
    if f[0].id == anchor {
      NestedBeforeHead(f, data, root);
    } else if anchor in ForestIds(Kids(f[0])) {
      var items := InsertAtAnchor(Kids(f[0]), data, anchor).0;
      InsertAtAnchorNestsBefore(Kids(f[0]), data, anchor, Some(f[0].id));
      NestedBeforeInChildren(f, items, data, anchor, root);
    } else {
      var rest := InsertAtAnchor(f[1..], data, anchor).0;
      InsertAtAnchorNestsBefore(f[1..], data, anchor, root);
      NestedBeforeInTail(f, rest, data, anchor, root);
    }
  }

  lemma NestedBeforeHead(f: seq<Element>, data: Element, root: Option<Id>)
    requires f != []
    ensures NestedBefore(f, [data] + f, data, f[0].id, root)
  {
    var r, post := [data] + f, Outline(f, root);
    assert post != [] && post[0] == Line(f[0].id, root) by {
      OutlineCons(f, root);
    }
    assert Outline(r, root) == [] + ElementOutline(data, root) + post by {
      assert r[0] == data && r[1..] == f;
      OutlineCons(r, root);
    }
    assert Outline(f, root) == [] + post;
    assert NestedAt(f, r, data, f[0].id, root, root, [], post);
  }

  lemma NestedBeforeInChildren(f: seq<Element>, items: seq<Element>, data: Element, anchor: Id, root: Option<Id>)
    requires f != [] && f[0].id != anchor && IsGroup(f[0])
    requires NestedBefore(Kids(f[0]), items, data, anchor, Some(f[0].id))
    ensures NestedBefore(f, [MapChildren(f[0], items)] + f[1..], data, anchor, root)
  {
    var parent, pre, post :| NestedAt(Kids(f[0]), items, data, anchor, Some(f[0].id), parent, pre, post);
    NestedAtInChildren(f, items, data, anchor, root, parent, pre, post);
  }

  lemma NestedAtInChildren(f: seq<Element>, items: seq<Element>, data: Element, anchor: Id, root: Option<Id>,
                           parent: Option<Id>, pre: seq<Line>, post: seq<Line>)
    requires f != [] && f[0].id != anchor && IsGroup(f[0])
    requires NestedAt(Kids(f[0]), items, data, anchor, Some(f[0].id), parent, pre, post)
    ensures NestedAt(f, [MapChildren(f[0], items)] + f[1..], data, anchor, root, parent,
                     [Line(f[0].id, root)] + pre, post + Outline(f[1..], root))
  {
    var r := [MapChildren(f[0], items)] + f[1..];
    var head, tail := [Line(f[0].id, root)], Outline(f[1..], root);
    assert Outline(f, root) == (head + pre) + (post + tail) by {
      OutlineCons(f, root);
      Regroup(head, pre, [], post, tail);
    }
    assert Outline(r, root) == (head + pre) + ElementOutline(data, parent) + (post + tail) by {
      assert r[0] == MapChildren(f[0], items) && r[1..] == f[1..];
      OutlineCons(r, root);
      Regroup(head, pre, ElementOutline(data, parent), post, tail);
    }
  }

  lemma NestedBeforeInTail(f: seq<Element>, rest: seq<Element>, data: Element, anchor: Id, root: Option<Id>)
    requires f != [] && anchor !in AllElementIds(f[0])
    requires NestedBefore(f[1..], rest, data, anchor, root)
    ensures NestedBefore(f, [f[0]] + rest, data, anchor, root)
  {
    var parent, pre, post :| NestedAt(f[1..], rest, data, anchor, root, parent, pre, post);
    NestedAtInTail(f, rest, data, anchor, root, parent, pre, post);
  }

  lemma NestedAtInTail(f: seq<Element>, rest: seq<Element>, data: Element, anchor: Id, root: Option<Id>,
                       parent: Option<Id>, pre: seq<Line>, post: seq<Line>)
    requires f != [] && anchor !in AllElementIds(f[0])
    requires NestedAt(f[1..], rest, data, anchor, root, parent, pre, post)
    ensures NestedAt(f, [f[0]] + rest, data, anchor, root, parent, ElementOutline(f[0], root) + pre, post)
  {
    var r := [f[0]] + rest;
    assert r[0] == f[0] && r[1..] == rest;
    OutlineCons(r, root);
    OutlineCons(f, root);
    var head := ElementOutline(f[0], root);
    Regroup(head, pre, ElementOutline(data, parent), post, []);
    forall l | l in head ensures l.id != anchor {
      if l != head[0] {
        OutlineIdsWithin(Kids(f[0]), Some(f[0].id), l);
      }
    }
  }

  /**
    `insert(_:after:)` of the current model. A nil anchor puts `data` first at
    the root; otherwise it lands immediately before the first pre-order
    occurrence of the anchor, in the anchor's own sibling sequence; with no
    occurrence anywhere it is appended at the root end.
   */
  function Insert(f: seq<Element>, data: Element, anchor: Option<Id>): (r: seq<Element>)
    ensures anchor.None? ==> r == [data] + f
    ensures anchor.Some? && anchor.value !in ForestIds(f) ==> r == f + [data]
    ensures anchor.Some? && anchor.value in ForestIds(f) ==> PlacedBefore(f, r, data, anchor.value)
    ensures anchor.Some? && anchor.value in ForestIds(f) ==> NestedBefore(f, r, data, anchor.value, None)
  {
    match anchor
    case None => [data] + f
    case Some(a) =>
      PlacedBeforeWhenFound(f, data, a);
      var (r, found) := InsertAtAnchor(f, data, a);
      if found then r else f + [data]
  }

  lemma PlacedBeforeWhenFound(f: seq<Element>, data: Element, anchor: Id)
    ensures anchor in ForestIds(f) ==> PlacedBefore(f, InsertAtAnchor(f, data, anchor).0, data, anchor)
    ensures anchor in ForestIds(f) ==> NestedBefore(f, InsertAtAnchor(f, data, anchor).0, data, anchor, None)
  {
    if anchor in ForestIds(f) {
      InsertAtAnchorPlacesBefore(f, data, anchor);
      InsertAtAnchorNestsBefore(f, data, anchor, None);
    }
  }

  /** Splicing a repetition-free block with fresh ids into a repetition-free listing keeps it so. */
  lemma DistinctSplice(pre: seq<Id>, mid: seq<Id>, post: seq<Id>)
    requires Distinct(pre + post) && Distinct(mid)
    requires forall x :: x in mid ==> x !in pre + post
    ensures Distinct(pre + mid + post)
  {
    DistinctAppend(pre, post);
    DistinctAppend(pre, mid);
    DistinctAppend(pre + mid, post);
  }

  /** A splice of `data`'s tree into the listing of a unique forest, with fresh ids, stays unique. */
  lemma SpliceKeepsUnique(f: seq<Element>, r: seq<Element>, data: Element, pre: seq<Id>, post: seq<Id>)
    requires Order(f) == pre + post && Order(r) == pre + ElementOrder(data) + post
    requires Unique(f) && Distinct(ElementOrder(data))
    requires AllElementIds(data) !! ForestIds(f)
    ensures Unique(r)
    ensures ForestIds(r) == ForestIds(f) + AllElementIds(data)
  {
    OrderIds(f);
    OrderIds(r);
    ElementOrderIds(data);
    DistinctSplice(pre, ElementOrder(data), post);
    forall x ensures x in ForestIds(r) <==> x in ForestIds(f) + AllElementIds(data) {
      assert x in Order(r) <==> x in pre + post || x in ElementOrder(data);
    }
  }

  /**
    Inserting an element whose tree is repetition-free and shares no id with
    a unique forest keeps the forest unique and adds exactly the element's
    ids: the data is inserted exactly once, in every branch.
   */
  lemma InsertKeepsUnique(f: seq<Element>, data: Element, anchor: Option<Id>)
    requires Unique(f) && Distinct(ElementOrder(data))
    requires AllElementIds(data) !! ForestIds(f)
    ensures Unique(Insert(f, data, anchor))
    ensures ForestIds(Insert(f, data, anchor)) == ForestIds(f) + AllElementIds(data)
  {
    var r := Insert(f, data, anchor);
    var pre, post := InsertSplices(f, data, anchor);
    SpliceKeepsUnique(f, r, data, pre, post);
  }

  /**
    Under uniqueness, with `data`'s ids fresh, `findParent` of the inserted
    element answers what it answered for the anchor: the element lands in
    the anchor's own sibling sequence, and at the root when there is no
    anchor or it does not occur.
   */
  lemma InsertTakesAnchorParent(f: seq<Element>, data: Element, anchor: Option<Id>)
    requires Unique(f) && Distinct(ElementOrder(data))
    requires AllElementIds(data) !! ForestIds(f)
    ensures ParentId(Insert(f, data, anchor), data.id) ==
            if anchor.Some? && anchor.value in ForestIds(f) then ParentId(f, anchor.value) else None
  {
    var r := Insert(f, data, anchor);
    InsertKeepsUnique(f, data, anchor);
    if anchor.None? {
      FindParentOfRoot(r, 0);
    } else if anchor.value !in ForestIds(f) {
      assert r[|f|] == data;
      FindParentOfRoot(r, |f|);
    } else {
      var parent, pre, post :| NestedAt(f, r, data, anchor.value, None, parent, pre, post);
      assert post[0] in Outline(f, None);
      OutlineParent(f, None, post[0]);
      assert Outline(r, None)[|pre|] == Line(data.id, parent);
      OutlineParent(r, None, Line(data.id, parent));
    }
  }

  /** Every branch of `Insert` splices `data`'s tree into the pre-order listing. */
  lemma InsertSplices(f: seq<Element>, data: Element, anchor: Option<Id>) returns (pre: seq<Id>, post: seq<Id>)
    ensures Order(f) == pre + post
    ensures Order(Insert(f, data, anchor)) == pre + ElementOrder(data) + post
  {
    if anchor.None? {
      PrependSplices(f, data);
      pre, post := [], Order(f);
    } else if anchor.value !in ForestIds(f) {
      AppendSplices(f, data);
      pre, post := Order(f), [];
    } else {
      var r := Insert(f, data, anchor);
      assert PlacedBefore(f, r, data, anchor.value);
      pre, post :| SplicedAt(f, r, data, anchor.value, pre, post);
    }
  }

  lemma PrependSplices(f: seq<Element>, data: Element)
    ensures Order([data] + f) == [] + ElementOrder(data) + Order(f)
  {
    var r := [data] + f;
    assert r[0] == data && r[1..] == f;
    OrderCons(r);
  }

  lemma AppendSplices(f: seq<Element>, data: Element)
    ensures Order(f + [data]) == Order(f) + ElementOrder(data) + []
  {
    OrderAppend(f, [data]);
    OrderCons([data]);
    assert [data][1..] == [];
  }

  /**
    `remove(_:)`: scanning a level, the first element carrying the id is
    dropped with its subtree and the scan stops; elements scanned before it
    have the removal applied to their children.
   */
  function Remove(f: seq<Element>, id: Id): (r: seq<Element>)
    ensures id !in ForestIds(f) ==> r == f
    ensures ForestIds(r) <= ForestIds(f)
    decreases ForestSize(f)
  {
    if f == [] then []
    else if f[0].id == id then assert id in AllElementIds(f[0]); f[1..]
    else
      SizeDecreases(f);
      var m, rest := MapChildren(f[0], Remove(Kids(f[0]), id)), Remove(f[1..], id);
      assert ForestIds(Kids(f[0])) <= AllElementIds(f[0]) <= ForestIds(f);
      assert id !in ForestIds(f) ==> m == f[0] && rest == f[1..];
      assert f == [f[0]] + f[1..];
      [m] + rest
  }

  /**
    `Order(f)` is `pre`, the tree of `e`, then `post`, and `Order(r)` is
    `pre + post`: `e`'s tree cut out, everything else in order.
   */
  ghost predicate CutAt(f: seq<Element>, r: seq<Element>, e: Element, pre: seq<Id>, post: seq<Id>) {
    Order(f) == pre + ElementOrder(e) + post && Order(r) == pre + post
  }

  /**
    Under uniqueness, removal cuts exactly the tree of the element carrying
    the id out of the pre-order listing and keeps everything else in order;
    `pre` and `post` are the ids listed before and after that tree.
   */
  lemma {:induction false} RemoveCutsSubtree(f: seq<Element>, id: Id) returns (pre: seq<Id>, post: seq<Id>)
    requires Unique(f)
    requires id in ForestIds(f)
    ensures Get(f, id).Some? && CutAt(f, Remove(f, id), Get(f, id).value, pre, post)
    decreases ForestSize(f)
  {
    SizeDecreases(f);
    UniqueCons(f);
    var e := Get(f, id).value;
    if f[0].id == id {
      pre, post := CutOutHead(f);
    } else if id in ForestIds(Kids(f[0])) {
      var pre', post' := RemoveCutsSubtree(Kids(f[0]), id);
      assert Remove(f[1..], id) == f[1..];
      pre, post := CutOutInChildren(f, Remove(Kids(f[0]), id), e, pre', post');
    } else {
      var pre', post' := RemoveCutsSubtree(f[1..], id);
      pre, post := CutOutInTail(f, Remove(f[1..], id), e, pre', post');
    }
  }

  /**
    Under uniqueness, removal cuts the removed element's nested listing out
    of the forest's and leaves every other line as it was: the surviving
    elements keep their order and their parents.
   */
  lemma {:induction false} RemoveCutsOutline(f: seq<Element>, id: Id, root: Option<Id>)
    returns (e: Element, parent: Option<Id>, pre: seq<Line>, post: seq<Line>)
    requires Unique(f) && id in ForestIds(f)
    ensures e in Flatten(f) && e.id == id
    ensures Outline(f, root) == pre + ElementOutline(e, parent) + post
    ensures Outline(Remove(f, id), root) == pre + post
    decreases ForestSize(f)
  {
    SizeDecreases(f);
    UniqueCons(f);
    var h, kids, t := f[0], Kids(f[0]), f[1..];
    assert Flatten(f) == [h] + Flatten(kids) + Flatten(t);
    if h.id == id {
      OutlineCons(f, root);
      e, parent, pre, post := h, root, [], Outline(t, root);
      assert pre + ElementOutline(e, parent) == ElementOutline(e, parent);
      assert pre + post == post;
    } else if id in ForestIds(kids) {
      var pre';
      e, parent, pre', post := RemoveCutsOutline(kids, id, Some(h.id));
      CutOutlineInChildren(f, id, root, e, parent, pre', post);
      pre, post := [Line(h.id, root)] + pre', post + Outline(t, root);
    } else {
      var pre';
      e, parent, pre', post := RemoveCutsOutline(t, id, root);
      CutOutlineInTail(f, id, root, e, parent, pre', post);
      pre := ElementOutline(h, root) + pre';
    }
  }

  /**
    Under uniqueness every element that survives a removal keeps its
    parent: `findParent` answers for it after the removal what it answered
    before.
   */
  lemma RemoveKeepsParents(f: seq<Element>, id: Id, c: Id)
    requires Unique(f) && c in ForestIds(Remove(f, id))
    ensures ParentId(Remove(f, id), c) == ParentId(f, c)
  {
    if id in ForestIds(f) {
      var r := Remove(f, id);
      var e, parent, pre, post := RemoveCutsOutline(f, id, None);
      var l := LineOf(r, c);
      assert l in Outline(f, None) by {
        assert l in pre + post;
      }
      RemoveKeepsUnique(f, id);
      OutlineParent(r, None, l);
      OutlineParent(f, None, l);
    }
  }

  /** An id of a forest has a line in its nested listing. */
  lemma LineOf(f: seq<Element>, c: Id) returns (l: Line)
    requires c in ForestIds(f)
    ensures l in Outline(f, None) && l.id == c
  {
    OrderIds(f);
    OutlineIsOrder(f, None);
    var i :| 0 <= i < |Order(f)| && Order(f)[i] == c;
    l := Outline(f, None)[i];
  }

  /** One step of `RemoveCutsOutline`: the element lies below the first element. */
  lemma CutOutlineInChildren(f: seq<Element>, id: Id, root: Option<Id>, e: Element, parent: Option<Id>,
                             pre: seq<Line>, post: seq<Line>)
    requires f != [] && f[0].id != id && id !in ForestIds(f[1..]) && id in ForestIds(Kids(f[0]))
    requires Outline(Kids(f[0]), Some(f[0].id)) == pre + ElementOutline(e, parent) + post
    requires Outline(Remove(Kids(f[0]), id), Some(f[0].id)) == pre + post
    ensures Outline(f, root) ==
            [Line(f[0].id, root)] + pre + ElementOutline(e, parent) + (post + Outline(f[1..], root))
    ensures Outline(Remove(f, id), root) == [Line(f[0].id, root)] + pre + (post + Outline(f[1..], root))
  {
    var m, t := RemoveInChildren(f, id);
    var head := [Line(f[0].id, root)];
    assert Outline(Remove(f, id), root) == head + Outline(Kids(m), Some(f[0].id)) + Outline(t, root) by {
      var r := Remove(f, id);
      assert r[0] == m && r[1..] == t;
      OutlineCons(r, root);
    }
    OutlineCons(f, root);
    var tail := Outline(f[1..], root);
    Regroup(head, pre, ElementOutline(e, parent), post, tail);
    Regroup(head, pre, [], post, tail);
  }

  /** `Remove` past a first element that does not carry the id: only its children change. */
  lemma RemoveInChildren(f: seq<Element>, id: Id) returns (m: Element, t: seq<Element>)
    requires f != [] && f[0].id != id && id !in ForestIds(f[1..]) && id in ForestIds(Kids(f[0]))
    ensures t == f[1..] && m.id == f[0].id && Kids(m) == Remove(Kids(f[0]), id)
    ensures Remove(f, id) == [m] + t
  {
    m, t := MapChildren(f[0], Remove(Kids(f[0]), id)), f[1..];
    assert Remove(t, id) == t;
  }

  /** One step of `RemoveCutsOutline`: the element lies in the later elements' trees. */
  lemma CutOutlineInTail(f: seq<Element>, id: Id, root: Option<Id>, e: Element, parent: Option<Id>,
                         pre: seq<Line>, post: seq<Line>)
    requires f != [] && id !in AllElementIds(f[0])
    requires Outline(f[1..], root) == pre + ElementOutline(e, parent) + post
    requires Outline(Remove(f[1..], id), root) == pre + post
    ensures Outline(f, root) == ElementOutline(f[0], root) + pre + ElementOutline(e, parent) + post
    ensures Outline(Remove(f, id), root) == ElementOutline(f[0], root) + pre + post
  {
    var rest := RemovePastTree(f, id);
    var r := Remove(f, id);
    assert r[0] == f[0] && r[1..] == rest;
    OutlineCons(r, root);
    OutlineCons(f, root);
    Regroup(ElementOutline(f[0], root), pre, ElementOutline(e, parent), post, []);
    Regroup(ElementOutline(f[0], root), pre, [], post, []);
  }

  /** `Remove` past a first tree without the id leaves that tree alone. */
  lemma RemovePastTree(f: seq<Element>, id: Id) returns (rest: seq<Element>)
    requires f != [] && id !in AllElementIds(f[0])
    ensures rest == Remove(f[1..], id)
    ensures Remove(f, id) == [f[0]] + rest
  {
    rest := Remove(f[1..], id);
    assert ForestIds(Kids(f[0])) <= AllElementIds(f[0]);
    assert Remove(Kids(f[0]), id) == Kids(f[0]);
  }

  lemma CutOutHead(f: seq<Element>) returns (pre: seq<Id>, post: seq<Id>)
    requires f != []
    ensures CutAt(f, f[1..], f[0], pre, post)
  {
    pre, post := [], Order(f[1..]);
    OrderCons(f);
    assert Order(f) == [] + ElementOrder(f[0]) + Order(f[1..]);
    assert Order(f[1..]) == [] + Order(f[1..]);
  }

  lemma CutOutInChildren(f: seq<Element>, items: seq<Element>, e: Element, pre': seq<Id>, post': seq<Id>)
    returns (pre: seq<Id>, post: seq<Id>)
    requires f != [] && IsGroup(f[0])
    requires CutAt(Kids(f[0]), items, e, pre', post')
    ensures CutAt(f, [MapChildren(f[0], items)] + f[1..], e, pre, post)
  {
    var g := MapChildren(f[0], items);
    var r := [g] + f[1..];
    var head, tail := [f[0].id], Order(f[1..]);
    pre, post := head + pre', post' + tail;
    assert Order(f) == pre + ElementOrder(e) + post by {
      OrderCons(f);
      Regroup(head, pre', ElementOrder(e), post', tail);
    }
    assert Order(r) == pre + post by {
      assert r[0] == g && r[1..] == f[1..];
      OrderCons(r);
      Regroup(head, pre', [], post', tail);
    }
  }

  lemma CutOutInTail(f: seq<Element>, rest: seq<Element>, e: Element, pre': seq<Id>, post': seq<Id>)
    returns (pre: seq<Id>, post: seq<Id>)
    requires f != []
    requires CutAt(f[1..], rest, e, pre', post')
    ensures CutAt(f, [f[0]] + rest, e, pre, post)
  {
    var r := [f[0]] + rest;
    var head := ElementOrder(f[0]);
    pre, post := head + pre', post';
    assert Order(f) == pre + ElementOrder(e) + post by {
      OrderCons(f);
      Regroup(head, pre', ElementOrder(e), post', []);
    }
    assert Order(r) == pre + post by {
      assert r[0] == f[0] && r[1..] == rest;
      OrderCons(r);
      Regroup(head, pre', [], post', []);
    }
  }

  /**
    Under uniqueness, removal keeps the forest unique and takes away exactly
    the ids of the removed element's tree.
   */
  lemma RemoveKeepsUnique(f: seq<Element>, id: Id)
    requires Unique(f)
    ensures Unique(Remove(f, id))
    ensures id !in ForestIds(Remove(f, id))
    ensures id in ForestIds(f) ==>
              Get(f, id).Some? &&
              ForestIds(Remove(f, id)) == ForestIds(f) - AllElementIds(Get(f, id).value)
  {
    if id in ForestIds(f) {
      var pre, post := RemoveCutsSubtree(f, id);
      var e := Get(f, id).value;
      var r := Remove(f, id);
      DistinctCut(pre, ElementOrder(e), post);
      assert Unique(r);
      forall x
        ensures x in ForestIds(r) <==> x in ForestIds(f) && x !in AllElementIds(e)
      {
        OrderIds(f);
        OrderIds(r);
        ElementOrderIds(e);
      }
      assert id in AllElementIds(e);
    }
  }

  /** Cutting a block out of a repetition-free listing leaves exactly the other ids, still distinct. */
  lemma DistinctCut(pre: seq<Id>, mid: seq<Id>, post: seq<Id>)
    requires Distinct(pre + mid + post)
    ensures Distinct(pre + post)
    ensures forall x :: x in pre + post <==> x in pre + mid + post && x !in mid
  {
    DistinctAppend(pre + mid, post);
    DistinctAppend(pre, mid);
    DistinctAppend(pre, post);
  }

  /** Removal of each id of `xs`, in that order (a set's `forEach { remove($0) }`). */
  function RemoveAll(f: seq<Element>, xs: seq<Id>): (r: seq<Element>)
    ensures ForestIds(r) <= ForestIds(f)
    decreases |xs|
  {
    if xs == [] then f else RemoveAll(Remove(f, xs[0]), xs[1..])
  }

  /**
    Under uniqueness, removing ids one after another leaves every surviving
    element with the parent it had.
   */
  lemma {:induction false} RemoveAllKeepsParents(f: seq<Element>, xs: seq<Id>, c: Id)
    requires Unique(f) && c in ForestIds(RemoveAll(f, xs))
    ensures ParentId(RemoveAll(f, xs), c) == ParentId(f, c)
    decreases |xs|
  {
    if xs != [] {
      var g := Remove(f, xs[0]);
      RemoveKeepsUnique(f, xs[0]);
      RemoveAllKeepsParents(g, xs[1..], c);
      RemoveKeepsParents(f, xs[0], c);
    }
  }

  /** Removing ids that do not occur changes nothing. */
  lemma {:induction false} RemoveAllUntouched(f: seq<Element>, xs: seq<Id>)
    requires forall x :: x in xs ==> x !in ForestIds(f)
    ensures RemoveAll(f, xs) == f
    decreases |xs|
  {
    if xs != [] {
      assert forall x :: x in xs[1..] ==> x in xs;
      RemoveAllUntouched(f, xs[1..]);
    }
  }

  /** Under uniqueness, none of the removed ids remains, and uniqueness is kept. */
  lemma {:induction false} RemoveAllKeepsUnique(f: seq<Element>, xs: seq<Id>)
    requires Unique(f)
    ensures Unique(RemoveAll(f, xs))
    ensures forall x :: x in xs ==> x !in ForestIds(RemoveAll(f, xs))
    decreases |xs|
  {
    if xs != [] {
      RemoveKeepsUnique(f, xs[0]);
      RemoveAllKeepsUnique(Remove(f, xs[0]), xs[1..]);
    }
  }

  /**
    Removing an id that none of the first `k` elements of a level carries
    keeps at least `k` elements there, with the same ids in front.
   */
  lemma {:induction false} RemoveKeepsPrefix(f: seq<Element>, id: Id, k: nat)
    requires k <= |f|
    requires forall j :: 0 <= j < k ==> f[j].id != id
    ensures k <= |Remove(f, id)|
    ensures forall j :: 0 <= j < k ==> Remove(f, id)[j].id == f[j].id
  {
    if k > 0 {
      RemoveKeepsPrefix(f[1..], id, k - 1);
    }
  }

  lemma {:induction false} RemoveAllKeepsPrefix(f: seq<Element>, xs: seq<Id>, ids: set<Id>, k: nat)
    requires k <= |f|
    requires forall j :: 0 <= j < k ==> f[j].id !in ids
    requires forall x :: x in xs ==> x in ids
    ensures k <= |RemoveAll(f, xs)|
    ensures forall j :: 0 <= j < k ==> RemoveAll(f, xs)[j].id == f[j].id
    decreases |xs|
  {
    if xs != [] {
      RemoveKeepsPrefix(f, xs[0], k);
      RemoveAllKeepsPrefix(Remove(f, xs[0]), xs[1..], ids, k);
    }
  }

  /**
    Every element listed after a removal comes from an element listed before
    it, with the same id and a tree that can only have shrunk.
   */
  lemma {:induction false} RemoveShrinks(f: seq<Element>, y: Id, e': Element) returns (e: Element)
    requires e' in Flatten(Remove(f, y))
    ensures e in Flatten(f) && e.id == e'.id && AllElementIds(e') <= AllElementIds(e)
    decreases ForestSize(f)
  {
    assert f != [];
    SizeDecreases(f);
    assert Flatten(f) == [f[0]] + Flatten(Kids(f[0])) + Flatten(f[1..]);
    if f[0].id == y {
      e := e';
    } else {
      var r := Remove(f, y);
      var m := MapChildren(f[0], Remove(Kids(f[0]), y));
      assert r[0] == m && r[1..] == Remove(f[1..], y);
      assert Flatten(r) == [m] + Flatten(Kids(m)) + Flatten(r[1..]);
      if e' == m {
        e := f[0];
      } else if e' in Flatten(Kids(m)) {
        assert IsGroup(f[0]);
        e := RemoveShrinks(Kids(f[0]), y, e');
      } else {
        e := RemoveShrinks(f[1..], y, e');
      }
    }
  }

  /** A descendant-closed id set: with an element's id it holds the element's whole tree. */
  ghost predicate Closed(f: seq<Element>, ids: set<Id>) {
    forall e :: e in Flatten(f) && e.id in ids ==> AllElementIds(e) <= ids
  }

  lemma ClosedAfterRemove(f: seq<Element>, y: Id, ids: set<Id>)
    requires Closed(f, ids)
    ensures Closed(Remove(f, y), ids)
  {
    forall e' | e' in Flatten(Remove(f, y)) && e'.id in ids
      ensures AllElementIds(e') <= ids
    {
      var e := RemoveShrinks(f, y, e');
    }
  }

  /**
    Under uniqueness, removing ids of a descendant-closed set removes
    nothing outside that set.
   */
  lemma {:induction false} RemoveAllWithinClosed(f: seq<Element>, xs: seq<Id>, ids: set<Id>)
    requires Unique(f) && Closed(f, ids)
    requires forall x :: x in xs ==> x in ids
    ensures ForestIds(f) - ids <= ForestIds(RemoveAll(f, xs))
    decreases |xs|
  {
    if xs != [] {
      var g := Remove(f, xs[0]);
      RemoveKeepsUnique(f, xs[0]);
      if xs[0] in ForestIds(f) {
        var e := Get(f, xs[0]).value;
        assert AllElementIds(e) <= ids;
      }
      ClosedAfterRemove(f, xs[0], ids);
      RemoveAllWithinClosed(g, xs[1..], ids);
    }
  }
}

=== FILE: queries.dfy ===
/**
  Read-only queries over a forest: lookup by id and parent lookup, each
  related to a plain linear search over the pre-order listing.
 */
module Queries {
  import opened Wrappers
  import opened Forest

  /** Reference search: the first element of a listing whose id is in `ids`. */
  function FirstWithId(s: seq<Element>, ids: set<Id>): (r: Option<Element>)
    ensures r.Some? ==> r.value in s && r.value.id in ids
    ensures r.None? <==> forall i :: 0 <= i < |s| ==> s[i].id !in ids
  {
    if s == [] then None
    else if s[0].id in ids then Some(s[0])
    else FirstWithId(s[1..], ids)
  }

  lemma {:induction false} FirstWithIdAppend(a: seq<Element>, b: seq<Element>, ids: set<Id>)
    ensures FirstWithId(a + b, ids) ==
            if FirstWithId(a, ids).Some? then FirstWithId(a, ids) else FirstWithId(b, ids)
  {
    if a == [] {
      assert a + b == b;
    } else {
      assert (a + b)[0] == a[0];
      assert (a + b)[1..] == a[1..] + b;
      FirstWithIdAppend(a[1..], b, ids);
    }
  }

  /** Lookup by id: the element itself is tested before its children, children before later siblings. */
  function Get(f: seq<Element>, id: Id): (r: Option<Element>)
    ensures r.Some? ==> r.value.id == id && r.value in Flatten(f)
    ensures r.None? <==> id !in ForestIds(f)
    decreases ForestSize(f)
  {
    if f == [] then None
    else if f[0].id == id then Some(f[0])
    else
      SizeDecreases(f);
      match Get(Kids(f[0]), id)
      case Some(e) => Some(e)
      case None => Get(f[1..], id)
  }

  /** `Get` returns the first element with that id in pre-order. */
  lemma {:induction false} GetIsFirstInPreOrder(f: seq<Element>, id: Id)
    ensures Get(f, id) == FirstWithId(Flatten(f), {id})
    decreases ForestSize(f)
  {
    if f != [] {
      SizeDecreases(f);
      GetIsFirstInPreOrder(Kids(f[0]), id);
      GetIsFirstInPreOrder(f[1..], id);
      FirstWithIdAppend([f[0]] + Flatten(Kids(f[0])), Flatten(f[1..]), {id});
      FirstWithIdAppend([f[0]], Flatten(Kids(f[0])), {id});
    }
  }

  /** Under uniqueness the element found by id is the only one carrying it. */
  lemma GetUnique(f: seq<Element>, e: Element)
    requires Unique(f)
    requires e in Flatten(f)
    ensures Get(f, e.id) == Some(e)
  {
    var r := Get(f, e.id);
    FlattenedIdsWithin(f, e);
    assert r.Some?;
    var i :| 0 <= i < |Flatten(f)| && Flatten(f)[i] == e;
    var j :| 0 <= j < |Flatten(f)| && Flatten(f)[j] == r.value;
    UniqueFlattenedIds(f, i, j);
  }

  /** `p` is a group with a direct child carrying `id`. */
  predicate IsParentOf(p: Element, id: Id) {
    IsGroup(p) && id in Ids(Kids(p))
  }

  /** Reference search: the first element of a listing that is a parent of `id`. */
  function FirstParentOf(s: seq<Element>, id: Id): (r: Option<Element>)
    ensures r.Some? ==> r.value in s && IsParentOf(r.value, id)
    ensures r.None? <==> forall i :: 0 <= i < |s| ==> !IsParentOf(s[i], id)
  {
    if s == [] then None
    else if IsParentOf(s[0], id) then Some(s[0])
    else FirstParentOf(s[1..], id)
  }

  lemma {:induction false} FirstParentOfAppend(a: seq<Element>, b: seq<Element>, id: Id)
    ensures FirstParentOf(a + b, id) ==
            if FirstParentOf(a, id).Some? then FirstParentOf(a, id) else FirstParentOf(b, id)
  {
    if a == [] {
      assert a + b == b;
    } else {
      assert (a + b)[0] == a[0];
      assert (a + b)[1..] == a[1..] + b;
      FirstParentOfAppend(a[1..], b, id);
    }
  }

  /** The element whose immediate children contain `id`, searched depth first. */
  function FindParent(f: seq<Element>, id: Id): (r: Option<Element>)
    ensures r.Some? ==> r.value in Flatten(f) && IsParentOf(r.value, id)
    decreases ForestSize(f)
  {
    if f == [] then None
    else if IsParentOf(f[0], id) then Some(f[0])
    else
      SizeDecreases(f);
      match FindParent(Kids(f[0]), id)
      case Some(p) => Some(p)
      case None => FindParent(f[1..], id)
  }

  /** `FindParent` is the first parent of `id` in pre-order; nothing iff no listed element has that child. */
  lemma {:induction false} FindParentIsFirstInPreOrder(f: seq<Element>, id: Id)
    ensures FindParent(f, id) == FirstParentOf(Flatten(f), id)
    ensures FindParent(f, id).None? <==>
            forall i :: 0 <= i < |Flatten(f)| ==> !IsParentOf(Flatten(f)[i], id)
    decreases ForestSize(f)
  {
    if f != [] {
      SizeDecreases(f);
      FindParentIsFirstInPreOrder(Kids(f[0]), id);
      FindParentIsFirstInPreOrder(f[1..], id);
      FirstParentOfAppend([f[0]] + Flatten(Kids(f[0])), Flatten(f[1..]), id);
      FirstParentOfAppend([f[0]], Flatten(Kids(f[0])), id);
    }
  }

  /** Under uniqueness, a root id never occurs below any listed element. */
  lemma {:induction false} RootNotBelow(f: seq<Element>, e: Element, j: int)
    requires Unique(f)
    requires e in Flatten(f)
    requires 0 <= j < |f|
    ensures f[j].id !in ForestIds(Kids(e))
    decreases ForestSize(f)
  {
    SizeDecreases(f);
    UniqueCons(f);
    var below := ForestIds(Kids(e));
    if e == f[0] {
    } else if e in Flatten(Kids(f[0])) {
      FlattenedIdsWithin(Kids(f[0]), e);
      assert below <= AllElementIds(e);
    } else {
      FlattenedIdsWithin(f[1..], e);
      assert below <= AllElementIds(e);
      if j > 0 {
        RootNotBelow(f[1..], e, j - 1);
        assert f[1..][j - 1] == f[j];
      }
    }
    if j > 0 {
      assert f[j] == f[1..][j - 1];
      assert f[j].id in ForestIds(f[1..]) by { RootIdsWithin(f[1..], j - 1); }
    }
  }

  lemma RootIdsWithin(f: seq<Element>, j: int)
    requires 0 <= j < |f|
    ensures AllElementIds(f[j]) <= ForestIds(f)
  {
    if j > 0 {
      RootIdsWithin(f[1..], j - 1);
    }
  }

  lemma {:induction false} IdsWithin(s: seq<Element>)
    ensures forall x :: x in Ids(s) ==> x in ForestIds(s)
  {
    if s != [] {
      IdsWithin(s[1..]);
    }
  }

  /** Under uniqueness a root element has no parent. */
  lemma FindParentOfRoot(f: seq<Element>, j: int)
    requires Unique(f)
    requires 0 <= j < |f|
    ensures FindParent(f, f[j].id) == None
  {
    var r := FindParent(f, f[j].id);
    if r.Some? {
      var e := r.value;
      RootNotBelow(f, e, j);
      IdsWithin(Kids(e));
      assert false;
    }
  }
  /** The id of the element `findParent` returns, `None` when it returns nil. */
  function ParentId(f: seq<Element>, id: Id): Option<Id> {
    match FindParent(f, id)
    case None => None
    case Some(p) => Some(p.id)
  }

  /** An id below the top level of `f` always has a parent there. */
  lemma {:induction false} FindParentComplete(f: seq<Element>, id: Id)
    requires id in ForestIds(f) && id !in Ids(f)
    ensures FindParent(f, id).Some?
    decreases ForestSize(f)
  {
    SizeDecreases(f);
    assert Ids(f) == [f[0].id] + Ids(f[1..]);
    if !IsParentOf(f[0], id) {
      if id in ForestIds(Kids(f[0])) {
        FindParentComplete(Kids(f[0]), id);
      } else {
        FindParentComplete(f[1..], id);
      }
    }
  }

  /**
    Under uniqueness the nested listing records `findParent`: a line's parent
    is the id of the element `findParent` returns, and an id without one
    carries the parent given to the whole forest.
   */
  lemma {:induction false} OutlineParent(f: seq<Element>, parent: Option<Id>, l: Line)
    requires Unique(f) && l in Outline(f, parent)
    ensures l.parent == if FindParent(f, l.id).Some? then Some(FindParent(f, l.id).value.id) else parent
    decreases ForestSize(f)
  {
    SizeDecreases(f);
    UniqueCons(f);
    var h, kids, t := f[0], Kids(f[0]), f[1..];
    if l == Line(h.id, parent) {
      FindParentOfRoot(f, 0);
    } else if l in Outline(kids, Some(h.id)) {
      OutlineIdsWithin(kids, Some(h.id), l);
      OutlineParent(kids, Some(h.id), l);
      if !IsParentOf(h, l.id) && FindParent(kids, l.id).None? {
        FindParentComplete(kids, l.id);
      }
      if IsParentOf(h, l.id) {
        var j :| 0 <= j < |kids| && Ids(kids)[j] == l.id;
        IdsIndex(kids, j);
        FindParentOfRoot(kids, j);
      }
    } else {
      assert l in Outline(t, parent);
      OutlineIdsWithin(t, parent, l);
      OutlineParent(t, parent, l);
      ParentPastHead(f, l.id);
    }
  }

  /** An id outside the first tree is searched for in the later siblings only. */
  lemma ParentPastHead(f: seq<Element>, id: Id)
    requires f != [] && id !in AllElementIds(f[0])
    ensures FindParent(f, id) == FindParent(f[1..], id)
  {
    IdsWithin(Kids(f[0]));
    var k := FindParent(Kids(f[0]), id);
    if k.Some? {
      FlattenedIdsWithin(Kids(f[0]), k.value);
      IdsWithin(Kids(k.value));
    }
  }
}

=== FILE: util.dfy ===
/** The bounds-checked subscript on collections. */
module Util {
  import opened Wrappers

  /**
    `subscript(safe:)`: the element at `i` when `i` is a valid index, and
    `None` for any other index, negative ones included.
   */
  function SafeIndex<T>(s: seq<T>, i: int): (r: Option<T>)
    ensures r.Some? <==> 0 <= i < |s|
    ensures r.Some? ==> r.value == s[i]
  {
    if 0 <= i < |s| then Some(s[i]) else None
  }
}

=== FILE: wrappers.dfy ===
/** Optional values, standing in for Swift's `T?`. */
module Wrappers {

  datatype Option<+T> = None | Some(value: T)
}
